=== FILE: README.md ===
# flask-discord-interactions: the interaction context, modelled in Dafny

This project models the part of flask-discord-interactions that turns an
incoming Discord interaction payload into a `Context` and then into the
arguments a handler is invoked with. Once the HTTP calls are removed, all of
it is a pure transformation of a JSON tree:

- `Context.from_data` reads the payload's fields with their defaults. It then
  parses the custom ID, the `resolved` section and the target.
- `parse_custom_id` splits a component's custom ID on newlines into a
  routing key (`primary_id`) and the full token list (`handler_state`).
- `create_handler_args` converts the state tokens after the routing key by
  the handler's parameter annotations. The rules are: `int` parses, `bool`
  accepts "True"/"False"/"None", and any other annotation keeps the string.
- `parse_resolved` builds the id-keyed member, channel, role and message
  tables. Each member record is merged with the `users` entry of the same id.
- `parse_target` picks the target of a user or message command.
- `create_args` and `create_args_chat_input` walk the option tree of a slash
  command:
  - sub-command and group names become positional arguments, in depth-first
    order;
  - user, channel and role options are looked up in `resolved`;
  - every other option passes its raw value as a keyword argument.
- `followup_url` builds webhook URLs. `get_command` looks up command ids. The
  followup actions share a guard that makes them no-ops.
- The entity models are `User.from_dict` (the nested `user` merge and the
  `avatar` → `avatar_hash` rename), `display_name`, `avatar_url` and
  `Member.__post_init__` (string permissions become integers).

Modules, in dependency order:

| file | module | contents |
|---|---|---|
| json_values.dfy | `JsonValues` | the JSON value type, Python truthiness, `==` against an integer enum |
| outcomes.dfy | `Outcomes` | `Option`, `Result` and the exceptions the core raises |
| text.dfy | `Text` | `str.split`, `startswith`/`endswith`, `int(text)` with the whitespace it ignores, `str(int)` |
| py_ops.dfy | `PyOps` | `v[key]`, `{**v}`, `int(v)`, `str(v)` on JSON values |
| entities.dfy | `Entities` | User, Member, Role, Channel/Message records and their loaders |
| custom_ids.dfy | `CustomIds` | the custom-ID codec |
| handler_args.dfy | `HandlerArgs` | handler-state coercion |
| resolved.dfy | `Resolved` | the resolved tables and target selection |
| arguments.dfy | `Arguments` | the option tree and the slash-command argument walk |
| interactions.dfy | `Interactions` | `Context`, `from_data`, `create_args`, followup URLs, `get_command`, the guard |

Python exceptions become `Failure` values. `KeyError` and `IndexError` carry
the key or index. `TypeError` stands for every error that comes from a value
of the wrong kind, including Python's `AttributeError`. `InvalidInt` is the
`ValueError` of `int()`, and `InvalidBool` is the one `create_handler_args`
raises.

Two behaviours of `create_handler_args` are worth stating plainly:

- An unparsable `int` token raises the `ValueError` of Python's `int()`.
- State tokens beyond the handler's declared parameters are passed to the
  handler unchanged, as strings (`HandlerArgs.CreateHandlerArgsSpec`).

The enum values the core compares against are not defined in the files
modelled here. They follow Discord's numbering: application command types
CHAT_INPUT = 1, USER = 2 and MESSAGE = 3, and option types SUB_COMMAND = 1,
SUB_COMMAND_GROUP = 2, USER = 6, CHANNEL = 7 and ROLE = 8.

## Model

| member | source | states |
|---|---|---|
| Text.Split | flask_discord_interactions/context.py:130 | `custom_id.split("\n")` has one more piece than the text has newlines, and no piece contains a newline |
| Text.BeforeFirst | flask_discord_interactions/context.py:129 | `split("\n", 1)[0]` is a newline-free prefix of the text, followed by a newline or by the end of the text |
| Text.SplitHeadIsBeforeFirst | flask_discord_interactions/context.py:129-130 | the first piece of the full split is the text before the first newline, so `handler_state[0] == primary_id` |
| Text.JoinSplit | flask_discord_interactions/context.py:130 | joining the split pieces with newlines gives the custom ID back |
| Text.SplitJoin | flask_discord_interactions/context.py:130 | splitting a newline-join of newline-free tokens gives the tokens back |
| Text.ParseInt | flask_discord_interactions/context.py:254-255 | `int(text)` succeeds exactly when the text, without surrounding whitespace (ASCII tab to carriage return, space, and non-ASCII whitespace; not U+001C to U+001F), is an optional `+` or `-` followed by at least one decimal digit, and then gives the digits' value with the sign applied; otherwise it raises ValueError naming the text |
| Text.SeparatorControlRejected | flask_discord_interactions/context.py:254-255 | `int()` raises ValueError for any text that starts with one of the ASCII separator controls U+001C to U+001F, which it does not skip as whitespace |
| Text.ParseIntRoundTrip | flask_discord_interactions/models/user.py:111-113 | `int(str(i)) == i` for every integer, so a permissions integer sent as its decimal text comes back unchanged |
| Text.IntToString | flask_discord_interactions/models/user.py:65 | `str(i)` is canonical: a `-` exactly for a negative number, then digits with no leading zero except for 0 itself; `int()` reads it back (`Text.ParseIntRoundTrip`) |
| PyOps.Subscript | flask_discord_interactions/context.py:142-143 | `v[key]` on a dict gives the entry, and raises KeyError for a missing string key or a scalar key; only dicts, lists and strings can be subscripted |
| PyOps.Lookup | flask_discord_interactions/context.py:165-168 | looking up a table built by the core succeeds exactly for a string key the table holds, and gives that entry |
| PyOps.Str | flask_discord_interactions/context.py:282-285 | an f-string renders a string as itself, null as `None`, booleans as `True`/`False`, and an integer as its canonical decimal text `str(i)`, which `int()` reads back to the integer |
| PyOps.Int | flask_discord_interactions/models/user.py:65 | `int(v)` keeps integers, turns `True`/`False` into 1/0, parses strings, and fails on null, lists and dicts |
| Entities.LoadUser | flask_discord_interactions/models/user.py:38-54 | every declared User field is read from the dict, and a missing one is null |
| Entities.MergedRecord | flask_discord_interactions/models/user.py:52-53 | `{**data, **data["user"]}` gives each key its nested value first, then its top-level value; `avatar_hash` is the merged `avatar`; the merge needs dicts |
| Entities.UserFromDict | flask_discord_interactions/models/user.py:50-54 | keys in a nested `user` dict override top-level keys; `avatar_hash` is the merged `avatar`, or null when absent; succeeds exactly for a mergeable dict |
| Entities.CoercePermissions | flask_discord_interactions/models/user.py:111-113 | a string permissions value becomes `int()` of it, and fails exactly when that parse fails; any other value is kept |
| Entities.LoadMember | flask_discord_interactions/models/user.py:102-109 | the Member loader gives the User part and every Member field from the dict, with the permissions already coerced |
| Entities.MemberFromDict | flask_discord_interactions/models/user.py:50-113 | a Member's user part is `User.from_dict` of the same data, and its other fields are the merged values; permissions are the coerced value; once the merge is possible, success depends only on that coercion |
| Entities.PermissionsStringBecomesInt | flask_discord_interactions/models/user.py:111-113 | a member whose permissions arrive as the decimal text of `n` holds the integer `n` |
| Entities.RoleFromDict | flask_discord_interactions/models/role.py:33-40 | a Role loads from any dict and from nothing else, and each of its eight declared fields is the dict's value under that name, or null |
| Entities.RecordFromDict | flask_discord_interactions/context.py:146-156 | a Channel or Message record keeps every field of its dict and reads every other field as null |
| Entities.DisplayName | flask_discord_interactions/models/user.py:56-59 | a user's display name is its declared `username` field |
| Entities.MemberDisplayName | flask_discord_interactions/models/user.py:115-121 | a member's display name is its nickname exactly when the nickname is truthy, and its user's `username` otherwise |
| Entities.UserDisplayNameFromDict | flask_discord_interactions/models/user.py:56-59 | `User.display_name` is the merged `username` |
| Entities.MemberDisplayNameFromDict | flask_discord_interactions/models/user.py:115-121 | `Member.display_name` is the nickname when it is truthy, and the username otherwise (so also for an empty nickname) |
| Entities.AvatarUrl | flask_discord_interactions/models/user.py:61-73 | without a hash: the default-avatar URL whose one digit is `int(discriminator) % 5`, failing exactly when the discriminator does not parse. With a hash: exactly `{prefix}{id}/{hash}` followed by `.gif` when the hash starts with `a_` and by `.png` otherwise |
| CustomIds.ParseCustomId | flask_discord_interactions/context.py:121-130 | `primary_id` is the newline-free prefix before the first newline, or the whole ID when it has no newline; `handler_state` starts with `primary_id`, has one token per newline plus one, and joins back to the ID |
| CustomIds.DecodeEncode | flask_discord_interactions/context.py:129-130 | decoding a routing key and newline-free state tokens joined by newlines gives back the key and `[key] + tokens` |
| CustomIds.NewlineInStateSplitsToken | flask_discord_interactions/context.py:130 | a state token that contains a newline comes back as two tokens |
| CustomIds.EmptyCustomId | flask_discord_interactions/context.py:129-130 | the empty custom ID gives `primary_id == ""` and `handler_state == [""]` |
| HandlerArgs.CoerceToken | flask_discord_interactions/context.py:251-266 | an `int` parameter parses the token, a `bool` parameter turns exactly "True", "False" and "None" into `True`, `False` and `None` and raises on any other text, and any other annotation keeps the string |
| HandlerArgs.CoerceTokens | flask_discord_interactions/context.py:245-266 | the zip over tokens and parameters fails exactly when some paired token cannot be converted, with the first such token's error; on success each paired token is converted, and the tokens beyond the parameters stay strings |
| HandlerArgs.CreateHandlerArgs | flask_discord_interactions/context.py:241 | one argument per state token after the routing key |
| HandlerArgs.CreateHandlerArgsSpec | flask_discord_interactions/context.py:230-268 | the Context parameter is skipped: state token `i` meets parameter `i` |
| HandlerArgs.UntypedHandlerTakesTokensVerbatim | flask_discord_interactions/context.py:251-266 | a handler without `int` or `bool` annotations receives its state tokens unchanged |
| HandlerArgs.IntAndBoolExample | flask_discord_interactions/context.py:251-263 | state `key`, `str(n)`, `True` for `(ctx, int, bool)` gives the arguments `n, True`, for example `5, True` |
| HandlerArgs.InvalidBoolExample | flask_discord_interactions/context.py:257-266 | "maybe" for a `bool` parameter raises the invalid-bool error |
| Resolved.SectionEntry | flask_discord_interactions/context.py:142-143 | `resolved[section][id]` fails when the section is missing, and is otherwise the subscript of the section by the id |
| Resolved.ResolveMember | flask_discord_interactions/context.py:142-144 | a member resolves exactly when its `members` record and its `users` entry both exist and are dicts and the overlaid permissions convert; each of its fields is then the `users` entry's value, else the `members` record's, else null, with the avatar hash read from `avatar` and the permissions coerced |
| Resolved.OverlayLoads | flask_discord_interactions/context.py:142-144 | writing the `users` entry into a member record as `user` and calling `Member.from_dict` succeeds exactly when the entry is a dict and the overlaid permissions convert, and gives the overlaid fields |
| Resolved.ResolvedMemberCarriesUserEntry | flask_discord_interactions/context.py:142-144 | a member with both records and convertible permissions resolves, every user field its `users` entry carries is taken from that entry, and its avatar hash is that entry's `avatar` |
| Resolved.BuildTable | flask_discord_interactions/context.py:146-156 | a table builds exactly when every entry builds; it then has exactly the section's ids, with each entry's entity; otherwise the error names only failing ids |
| Resolved.IteratedIds | flask_discord_interactions/context.py:141 | iterating a dict of member records visits exactly its keys |
| Resolved.ParseResolved | flask_discord_interactions/context.py:132-156 | the member table has the ids listed under `members`, each resolved with its `users` entry; the channel and message tables hold each section entry loaded as a record, and the role table each entry loaded as a Role, under the same ids; an absent section is empty |
| Resolved.ParseResolvedSucceedsIff | flask_discord_interactions/context.py:132-156 | the parse succeeds exactly when `resolved` is a dict, every listed member id resolves, and every channel, role and message entry is a dict |
| Resolved.EmptyResolvedIsEmpty | flask_discord_interactions/context.py:132-156 | the default `resolved` section `{}` gives four empty tables |
| Resolved.MemberWithoutUserFails | flask_discord_interactions/context.py:141-144 | a member id without a `users` entry makes the parse fail |
| Resolved.ParseTarget | flask_discord_interactions/context.py:158-170 | USER targets `members[target_id]` and MESSAGE targets `messages[target_id]`, succeeding exactly when the id is a key of that table; any other type has no target; an absent target id fails |
| Arguments.ParseOption | flask_discord_interactions/context.py:196-224 | an option without a `type` is malformed; a sub-command or group with a `name` becomes a sub-command of that name; a sub-command's children are its `options` entry read as an option list, or none when absent; any other type becomes a leaf of the matching kind that keeps its `name` and `value` entries for the walk to read |
| Arguments.ParseOptionList | flask_discord_interactions/context.py:190-196 | a falsy `options` value has no options; a list has one option per element, read element by element; any other truthy value is a single malformed option, as Python's `for` over it raises TypeError |
| Arguments.ParseItems | flask_discord_interactions/context.py:196 | the remaining elements of an options list, read in order |
| Arguments.ResolveLeaf | flask_discord_interactions/context.py:209-224 | a plain option passes its raw value, or raises KeyError without one; a user option becomes the member its value resolves to; a channel or role option succeeds exactly when `resolved["channels"][value]` or `resolved["roles"][value]` exists and is a dict, and becomes that entry loaded as a channel record or a Role |
| Arguments.KeywordName | flask_discord_interactions/context.py:212-224 | the keyword a leaf binds is its name, which must be present (KeyError otherwise) and a string |
| Arguments.ArgsOf | flask_discord_interactions/context.py:189-228 | the positional arguments are exactly the sub-command and group names in depth-first order |
| Arguments.ArgsOfSucceedsIff | flask_discord_interactions/context.py:196-224 | the walk succeeds exactly when no option is malformed, every leaf has a string name, and every leaf's value resolves |
| Arguments.ArgsOfCoversLeaves | flask_discord_interactions/context.py:201-224 | every leaf's name becomes a keyword argument |
| Arguments.ArgsOfKeywords | flask_discord_interactions/context.py:201-224 | every keyword argument is the resolved value of the last leaf with that name, since later bindings replace earlier ones |
| Arguments.EmptyOptions | flask_discord_interactions/context.py:190-191 | an empty or absent options list yields `([], {})` |
| Arguments.NestedSubCommandExample | flask_discord_interactions/context.py:196-224 | group `a`, sub-command `b` and option `x=1` give `("a", "b")` and `{x: 1}` |
| Arguments.LaterBindingWins | flask_discord_interactions/context.py:224 | of two options with the same name, the later value is passed |
| Arguments.UnresolvedUserBeforeMissingName | flask_discord_interactions/context.py:209-213 | a user option is resolved before its name is read, so an unknown user's KeyError is raised first |
| Interactions.Payload | flask_discord_interactions/context.py:81-82 | a missing payload is the empty dict, a dict is kept, anything else fails |
| Interactions.CustomIdText | flask_discord_interactions/context.py:103 | a falsy `custom_id` becomes `""`; a string is kept; any other value cannot be split |
| Interactions.FromData | flask_discord_interactions/context.py:80-111 | the context holds the payload's fields with their defaults (type CHAT_INPUT when falsy, `values` `[]`, `resolved` `{}`, custom ID `""`), the custom-ID split, the parsed resolved tables and the parsed target |
| Interactions.FromDataDefaults | flask_discord_interactions/context.py:94-103 | an empty payload gives a CHAT_INPUT context with no values, no resolved entities, no target, and custom ID `""` with state `[""]` |
| Interactions.FromDataSucceedsIff | flask_discord_interactions/context.py:80-111 | loading fails exactly when one stage raises: the payload, the author, the command data, the custom ID, the resolved section or the target |
| Interactions.CreateArgs | flask_discord_interactions/context.py:172-182 | a CHAT_INPUT command's arguments are those of its option tree; a type other than CHAT_INPUT, USER and MESSAGE has none |
| Interactions.TargetCommandArgs | flask_discord_interactions/context.py:165-182 | a USER or MESSAGE command whose target was parsed as `from_data` parses it gets `([target], {})`, where the target is the member or message its target id names |
| Interactions.OneMessageParses | flask_discord_interactions/context.py:153-156 | a `resolved` section holding one message gives a message table with just that message |
| Interactions.MessageCommandExample | flask_discord_interactions/context.py:165-182 | a message command on message "m1" targets that message and passes it as its only argument |
| Interactions.HandlerArgsFromCustomId | flask_discord_interactions/context.py:241-266 | when the state is the split of the custom ID, as `from_data` leaves it, the handler arguments are the custom ID's state tokens, one per newline; their coercion fails exactly when a paired token does not convert |
| Interactions.Config | flask_discord_interactions/context.py:281-282 | `app.config[key]` exists exactly when there is an app whose config has the key |
| Interactions.WebhookUrl | flask_discord_interactions/context.py:282-283 | the webhook URL starts with `{base}/webhooks/{client_id}/` and ends with `/{token}`, and is exactly their concatenation |
| Interactions.FollowupUrl | flask_discord_interactions/context.py:270-287 | the URL is exactly `{base}/webhooks/{client_id}/{token}`, followed by `/messages/{message}` when a message is given; it needs the app's base URL and client id |
| Interactions.MessageUrlExtendsWebhookUrl | flask_discord_interactions/context.py:281-285 | a message's URL is the webhook URL followed by `/messages/` and the message |
| Interactions.SkipsRemote | flask_discord_interactions/context.py:303 | the guard `edit`, `delete` and `send` share (lines 303, 323, 342): with no app the actions are skipped; with an app they are skipped exactly when `DONT_REGISTER_WITH_DISCORD` is truthy, and that key must exist |
| Interactions.ActionRequest | flask_discord_interactions/context.py:289-353 | when the app's config lacks `DONT_REGISTER_WITH_DISCORD` the guard's KeyError is raised; a skipped action makes no request; otherwise `edit` PATCHes and `delete` DELETEs the message URL, and `send` POSTs the webhook URL |
| Interactions.UnregisteredMakesNoRequest | flask_discord_interactions/context.py:303 | without an app, or with an app marked not to register, no action makes a request |
| Interactions.GetCommand | flask_discord_interactions/context.py:355-363 | no name gives the invoked command's id; a name gives the registered command's id; an unknown name raises UnknownCommand |

## Left out

- The HTTP requests of `edit`, `delete`, `send` and `overwrite_permissions` are network I/O. `ActionRequest` only describes the request an action would make.
- `overwrite_permissions`: its URL and its different guard are not modelled. The permission payload needs `dump()` of objects outside this model.
- Every `AsyncContext` method is left out: it is async I/O over an aiohttp session.
- `freeze` and `auth_headers` are left out. They copy the context for pickling and call an external `discord.auth_headers`.
- `Message.from_return_value`, called by `edit` and `send`, is not part of this model.
- Unwrapping the Flask proxy in `from_data` is left out. The model receives the application itself, as `Option<App>`.
- `inspect.signature` reflection in `create_handler_args` is replaced by an explicit list of parameter tags (`ParamType`).
- `LoadableDataclass.from_dict` is not part of this model. It is assumed to read each declared field, default a missing one to null, ignore extra keys, and raise on a non-dict.
- `Channel` and `Message` are not part of this model. They are the abstract `Record`, which keeps every field of its dict.
- Floating-point JSON numbers are left out. The value type has integers only.
- Mutation of the payload is left out. `parse_resolved` and the user-option branch write `users[id]` into the member records in place; the model builds the same merged record without changing the payload.
- PyOps.Str: lists and dicts render as `[...]` and `{...}` instead of Python's `repr`.
- Text.ParseInt: underscores between digits and non-ASCII digits, which Python's `int()` also accepts, are not modelled.
- Resolved.BuildTable: a section with any failing entry reports `EntriesFailed` with the set of failing ids, in place of the first failing entry's own exception (its KeyError, TypeError or ValueError). This holds even for a single failing entry, as in `Resolved.MemberWithoutUserFails`. Python raises the first failure in payload order, and the model's maps have no order.
- Resolved.IteratedIds: for a `members` value that is not a dict, only empty lists and strings are treated as iterable; any other value is an error. Python would also iterate a non-empty list or string and fail on the lookup.
- Arguments.KeywordName: a leaf name that is not a string is an error when the argument is bound. Python would build the keyword dict and fail only when calling the handler.
- Interactions.GetCommand: the registered commands are reduced to their ids, by name.
- PyOps.Subscript: `TypeError` also stands for `AttributeError` and for the other wrong-kind errors; the exception messages are not modelled.

=== FILE: arguments.dfy ===
/** Argument reconstruction for slash commands, `create_args_chat_input`
    (flask_discord_interactions/context.py:184-228).

    The `options` list of the payload is first read into a tagged tree. The
    read never fails: an option the walk would trip over becomes a
    `Malformed` node carrying the exception, so that the walk raises the same
    exception at the same point as the source's single interleaved loop. */
module Arguments {
  import opened JsonValues
  import opened Outcomes
  import opened PyOps
  import opened Entities
  import opened Resolved

  /** Command option types (Discord's numbering) the walk distinguishes. */
  const SUB_COMMAND := 1
  const SUB_COMMAND_GROUP := 2
  const USER_OPTION := 6
  const CHANNEL_OPTION := 7
  const ROLE_OPTION := 8

  /** How a leaf's value becomes an argument: looked up among the resolved
      members, channels or roles, or passed through. */
  datatype LeafKind = UserLeaf | ChannelLeaf | RoleLeaf | ValueLeaf

  datatype CommandOption =
    /** A sub-command or sub-command group: its name joins the command path
        and its own options are walked in turn. */
    | SubCommand(name: Json, options: seq<CommandOption>)
    /** Any other option. Its `name` and `value` are looked up only when the
        walk reaches them, so a missing one raises at that point. */
    | Leaf(kind: LeafKind, keyName: Option<Json>, value: Option<Json>)
    /** An option the walk raises on when it reaches it. */
    | Malformed(error: Error)

  /** The arguments a handler is invoked with: `handler(ctx, *positional,
      **keyword)`. */
  datatype Args = Args(positional: seq<Entity>, keyword: map<string, Entity>)

  function LeafKindOf(t: Json): LeafKind {
    if EqualsInt(t, USER_OPTION) then UserLeaf
    else if EqualsInt(t, CHANNEL_OPTION) then ChannelLeaf
    else if EqualsInt(t, ROLE_OPTION) then RoleLeaf
    else ValueLeaf
  }

  // ---------------------------------------------------------------------
  // Reading the option tree
  // ---------------------------------------------------------------------

  /** `m[key]`, if present. */
  function Entry(m: map<string, Json>, key: string): (r: Option<Json>)
    ensures r.Some? <==> key in m
    ensures r.Some? ==> r.value == m[key]
  {
    if key in m then Some(m[key]) else None
  }

  /** `option[key]` for an entry the walk reads from the option itself. */
  function Required(entry: Option<Json>, key: string): (r: Result<Json>)
    ensures r.Success? <==> entry.Some?
    ensures r.Success? ==> r.value == entry.value
  {
    match entry
    case Some(v) => Success(v)
    case None => Failure(KeyError(JStr(key)))
  }

  /** One element of an `options` list. A dict with a `type` becomes a
      sub-command (whose name must be present) or a leaf that keeps its
      `name` and `value` entries; anything else is malformed. */
  function ParseOption(j: Json): (r: CommandOption)
    decreases j, 0, 0
    ensures !j.JObj? || "type" !in j.fields ==> r.Malformed?
    ensures r.SubCommand? <==>
      && j.JObj? && "type" in j.fields && "name" in j.fields
      && (EqualsInt(j.fields["type"], SUB_COMMAND) || EqualsInt(j.fields["type"], SUB_COMMAND_GROUP))
    ensures r.SubCommand? ==>
      && r.name == j.fields["name"]
      && r.options == (if "options" in j.fields then ParseOptionList(j.fields["options"]) else [])
    ensures r.Leaf? <==>
      && j.JObj? && "type" in j.fields
      && !EqualsInt(j.fields["type"], SUB_COMMAND) && !EqualsInt(j.fields["type"], SUB_COMMAND_GROUP)
    ensures r.Leaf? ==>
      && r.kind == LeafKindOf(j.fields["type"])
      && r.keyName == Entry(j.fields, "name") && r.value == Entry(j.fields, "value")
  {
    match j
    case JObj(m) =>
      if "type" !in m then Malformed(KeyError(JStr("type")))
      else
        var t := m["type"];
        if EqualsInt(t, SUB_COMMAND) || EqualsInt(t, SUB_COMMAND_GROUP) then
          if "name" !in m then Malformed(KeyError(JStr("name")))
          else SubCommand(m["name"], if "options" in m then ParseOptionList(m["options"]) else [])
        else Leaf(LeafKindOf(t), Entry(m, "name"), Entry(m, "value"))
    case _ => Malformed(TypeError("option dict"))
  }

  /** The `options` value of a command or sub-command. A falsy value (absent,
      null, empty) has no options; a truthy value that is not a list raises
      on its first iteration. */
  function ParseOptionList(v: Json): (r: seq<CommandOption>)
    decreases v, 2, 0
    ensures !Truthy(v) ==> r == []
    ensures Truthy(v) && !v.JArr? ==> |r| == 1 && r[0].Malformed?
    ensures v.JArr? ==> |r| == |v.items|
    ensures v.JArr? ==> forall i | 0 <= i < |r| :: r[i] == ParseOption(v.items[i])
  {
    if !Truthy(v) then []
    else if v.JArr? then ParseItems(v, 0)
    else [Malformed(TypeError("list of options"))]
  }

  function ParseItems(v: Json, k: nat): (r: seq<CommandOption>)
    requires v.JArr? && k <= |v.items|
    decreases v, 1, |v.items| - k
    ensures |r| == |v.items| - k
    ensures forall i | 0 <= i < |r| :: r[i] == ParseOption(v.items[k + i])
  {
    if k == |v.items| then []
    else [ParseOption(v.items[k])] + ParseItems(v, k + 1)
  }

  // ---------------------------------------------------------------------
  // Walking the tree
  // ---------------------------------------------------------------------

  /** The argument a leaf's value becomes. For a user, channel or role the
      section of `resolved` is looked up before the option's `value`, as
      Python evaluates `resolved["members"][option["value"]]`. */
  function ResolveLeaf(kind: LeafKind, value: Option<Json>, resolved: Json): (r: Result<Entity>)
    ensures value.None? ==> r.Failure?
    ensures kind == ValueLeaf ==> r == (if value.Some? then Success(Raw(value.value)) else Failure(KeyError(JStr("value"))))
    ensures kind == UserLeaf ==>
      (r.Success? <==>
         value.Some? && Item(resolved, "members").Success? && ResolveMember(resolved, value.value).Success?)
    ensures kind == UserLeaf && r.Success? ==>
      && value.Some? && r.value.MemberEntity?
      && ResolveMember(resolved, value.value) == Success(r.value.member)
    ensures kind == ChannelLeaf ==>
      (r.Success? <==>
         && value.Some? && SectionEntry(resolved, "channels", value.value).Success?
         && SectionEntry(resolved, "channels", value.value).value.JObj?)
    ensures kind == ChannelLeaf && r.Success? ==>
      && value.Some? && r.value.ChannelEntity?
      && RecordFromDict(SectionEntry(resolved, "channels", value.value).value) == Success(r.value.channel)
    ensures kind == RoleLeaf ==>
      (r.Success? <==>
         && value.Some? && SectionEntry(resolved, "roles", value.value).Success?
         && SectionEntry(resolved, "roles", value.value).value.JObj?)
    ensures kind == RoleLeaf && r.Success? ==>
      && value.Some? && r.value.RoleEntity?
      && RoleFromDict(SectionEntry(resolved, "roles", value.value).value) == Success(r.value.role)
  {
    match kind
    case UserLeaf =>
      var members :- Item(resolved, "members");
      var id :- Required(value, "value");
      var member :- ResolveMember(resolved, id);
      Success(MemberEntity(member))
    case ChannelLeaf =>
      var channels :- Item(resolved, "channels");
      var id :- Required(value, "value");
      var record :- Subscript(channels, id);
      var channel :- RecordFromDict(record);
      Success(ChannelEntity(channel))
    case RoleLeaf =>
      var roles :- Item(resolved, "roles");
      var id :- Required(value, "value");
      var record :- Subscript(roles, id);
      var role :- RoleFromDict(record);
      Success(RoleEntity(role))
    case ValueLeaf =>
      var v :- Required(value, "value");
      Success(Raw(v))
  }

  /** The keyword a leaf binds: its name, which must be a string. */
  function KeywordName(name: Option<Json>): (r: Result<string>)
    ensures r.Success? <==> name.Some? && name.value.JStr?
    ensures r.Success? ==> name == Some(JStr(r.value))
    ensures name.None? ==> r == Failure(KeyError(JStr("name")))
  {
    match name
    case None => Failure(KeyError(JStr("name")))
    case Some(JStr(s)) => Success(s)
    case Some(_) => Failure(TypeError("string option name"))
  }

  /** The leaves of the tree in depth-first order. */
  function Leaves(opts: seq<CommandOption>): (r: seq<CommandOption>)
    decreases opts
    ensures forall i | 0 <= i < |r| :: r[i].Leaf?
  {
    if |opts| == 0 then []
    else match opts[0]
      case SubCommand(_, children) => Leaves(children) + Leaves(opts[1..])
      case Leaf(_, _, _) => [opts[0]] + Leaves(opts[1..])
      case Malformed(_) => Leaves(opts[1..])
  }

  /** The sub-command names of the tree in depth-first order: the command
      path. */
  function CommandPath(opts: seq<CommandOption>): seq<Json>
    decreases opts
  {
    if |opts| == 0 then []
    else match opts[0]
      case SubCommand(name, children) => [name] + CommandPath(children) + CommandPath(opts[1..])
      case _ => CommandPath(opts[1..])
  }

  /** No malformed option anywhere, and every leaf named by a string. */
  predicate WellFormed(opts: seq<CommandOption>)
    decreases opts
  {
    |opts| > 0 ==>
      && match opts[0] {
           case SubCommand(_, children) => WellFormed(children)
           case Leaf(_, name, _) => name.Some? && name.value.JStr?
           case Malformed(_) => false
         }
      && WellFormed(opts[1..])
  }

  /** Every leaf of the list resolves. */
  predicate AllResolve(leaves: seq<CommandOption>, resolved: Json)
    requires forall i | 0 <= i < |leaves| :: leaves[i].Leaf?
  {
    forall i | 0 <= i < |leaves| :: ResolveLeaf(leaves[i].kind, leaves[i].value, resolved).Success?
  }

  /** Every leaf of the tree resolves. */
  predicate Resolvable(opts: seq<CommandOption>, resolved: Json) {
    AllResolve(Leaves(opts), resolved)
  }

  /** Leaf `o` binds keyword `k`. */
  predicate Binds(o: CommandOption, k: string) {
    o.Leaf? && o.keyName == Some(JStr(k))
  }

  /** The last leaf of the list that binds `k` binds it to a value that
      resolves to `e`. */
  ghost predicate HasSource(leaves: seq<CommandOption>, k: string, e: Entity, resolved: Json) {
    exists i | 0 <= i < |leaves| ::
      && Binds(leaves[i], k)
      && ResolveLeaf(leaves[i].kind, leaves[i].value, resolved) == Success(e)
      && forall j | i < j < |leaves| :: !Binds(leaves[j], k)
  }

  /** Every keyword of `kw` comes from the last leaf of the list that binds
      it. */
  ghost predicate Sourced(leaves: seq<CommandOption>, kw: map<string, Entity>, resolved: Json) {
    forall k | k in kw :: HasSource(leaves, k, kw[k], resolved)
  }

  lemma AllResolveAppend(a: seq<CommandOption>, b: seq<CommandOption>, resolved: Json)
    requires forall i | 0 <= i < |a| :: a[i].Leaf?
    requires forall i | 0 <= i < |b| :: b[i].Leaf?
    ensures AllResolve(a + b, resolved) <==> AllResolve(a, resolved) && AllResolve(b, resolved)
  {
    var ab := a + b;
    if AllResolve(a, resolved) && AllResolve(b, resolved) {
      forall i | 0 <= i < |ab|
        ensures ResolveLeaf(ab[i].kind, ab[i].value, resolved).Success?
      {
        if i >= |a| { assert ab[i] == b[i - |a|]; }
      }
    }
    if AllResolve(ab, resolved) {
      forall i | 0 <= i < |a|
        ensures ResolveLeaf(a[i].kind, a[i].value, resolved).Success?
      {
        assert ab[i] == a[i];
      }
      forall i | 0 <= i < |b|
        ensures ResolveLeaf(b[i].kind, b[i].value, resolved).Success?
      {
        assert ab[|a| + i] == b[i];
      }
    }
  }

  /** Keywords sourced from two leaf lists, merged with the second winning,
      are sourced from the concatenated list, provided every name the second
      list binds is among its keywords. */
  lemma SourcedMerge(a: seq<CommandOption>, ka: map<string, Entity>,
                     b: seq<CommandOption>, kb: map<string, Entity>, resolved: Json)
    requires Sourced(a, ka, resolved) && Sourced(b, kb, resolved)
    requires Covers(b, kb)
    ensures Sourced(a + b, ka + kb, resolved)
  {
    forall k | k in ka + kb
      ensures HasSource(a + b, k, (ka + kb)[k], resolved)
    {
      if k in kb {
        SourceInSecond(a, b, k, kb[k], resolved);
      } else {
        SourceInFirst(a, b, kb, k, ka[k], resolved);
      }
    }
  }

  /** A binding of the second list is still the last one after the first. */
  lemma SourceInSecond(a: seq<CommandOption>, b: seq<CommandOption>, k: string, e: Entity, resolved: Json)
    requires HasSource(b, k, e, resolved)
    ensures HasSource(a + b, k, e, resolved)
  {
    var ab := a + b;
    var i :| 0 <= i < |b| && Binds(b[i], k)
      && ResolveLeaf(b[i].kind, b[i].value, resolved) == Success(e)
      && forall j | i < j < |b| :: !Binds(b[j], k);
    assert ab[|a| + i] == b[i];
    forall j | |a| + i < j < |ab| ensures !Binds(ab[j], k) {
      assert ab[j] == b[j - |a|];
    }
  }

  /** A binding of the first list stays the last one when the second list
      does not bind the name. */
  lemma SourceInFirst(a: seq<CommandOption>, b: seq<CommandOption>, kb: map<string, Entity>,
                      k: string, e: Entity, resolved: Json)
    requires HasSource(a, k, e, resolved)
    requires Covers(b, kb) && k !in kb
    ensures HasSource(a + b, k, e, resolved)
  {
    var ab := a + b;
    var i :| 0 <= i < |a| && Binds(a[i], k)
      && ResolveLeaf(a[i].kind, a[i].value, resolved) == Success(e)
      && forall j | i < j < |a| :: !Binds(a[j], k);
    assert ab[i] == a[i];
    forall j | i < j < |ab| ensures !Binds(ab[j], k) {
      if j < |a| {
        assert ab[j] == a[j];
      } else {
        assert ab[j] == b[j - |a|];
      }
    }
  }

  function Raws(names: seq<Json>): (r: seq<Entity>)
    ensures |r| == |names|
    ensures forall i | 0 <= i < |r| :: r[i] == Raw(names[i])
  {
    seq(|names|, i requires 0 <= i < |names| => Raw(names[i]))
  }

  /** `create_args_recursive`: each sub-command's name is appended to the
      positional arguments before its own options' arguments; each leaf
      binds its name to its resolved value, later bindings replacing earlier
      ones. */
  function ArgsOf(opts: seq<CommandOption>, resolved: Json): (r: Result<Args>)
    decreases opts
    ensures r.Success? ==> r.value.positional == Raws(CommandPath(opts))
  {
    if |opts| == 0 then Success(Args([], map[]))
    else match opts[0]
      case Malformed(e) => Failure(e)
      case SubCommand(name, children) =>
        var sub :- ArgsOf(children, resolved);
        var rest :- ArgsOf(opts[1..], resolved);
        Success(Args([Raw(name)] + sub.positional + rest.positional, sub.keyword + rest.keyword))
      case Leaf(kind, name, value) =>
        var v :- ResolveLeaf(kind, value, resolved);
        var key :- KeywordName(name);
        var rest :- ArgsOf(opts[1..], resolved);
        Success(Args(rest.positional, map[key := v] + rest.keyword))
  }

  /** The walk succeeds exactly when the tree has no malformed option, every
      leaf is named by a string, and every leaf's value resolves. */
  lemma {:induction false} ArgsOfSucceedsIff(opts: seq<CommandOption>, resolved: Json)
    decreases opts
    ensures ArgsOf(opts, resolved).Success? <==> WellFormed(opts) && Resolvable(opts, resolved)
  {
    if |opts| > 0 {
      match opts[0]
      case Malformed(_) =>
      case SubCommand(_, children) =>
        ArgsOfSucceedsIff(children, resolved);
        ArgsOfSucceedsIff(opts[1..], resolved);
        AllResolveAppend(Leaves(children), Leaves(opts[1..]), resolved);
      case Leaf(kind, _, value) =>
        ArgsOfSucceedsIff(opts[1..], resolved);
        AllResolveAppend([opts[0]], Leaves(opts[1..]), resolved);
        assert [opts[0]][0] == opts[0];
    }
  }

  /** Every name a leaf of the list binds is a keyword of `kw`. */
  ghost predicate Covers(leaves: seq<CommandOption>, kw: map<string, Entity>) {
    forall i, k | 0 <= i < |leaves| && Binds(leaves[i], k) :: k in kw
  }

  lemma CoversMerge(a: seq<CommandOption>, ka: map<string, Entity>,
                    b: seq<CommandOption>, kb: map<string, Entity>)
    requires Covers(a, ka) && Covers(b, kb)
    ensures Covers(a + b, ka + kb)
  {
    var ab := a + b;
    forall i, k | 0 <= i < |ab| && Binds(ab[i], k) ensures k in ka + kb {
      if i < |a| {
        assert ab[i] == a[i];
      } else {
        assert ab[i] == b[i - |a|];
      }
    }
  }

  /** On success every leaf's name is a keyword argument. */
  lemma {:induction false} ArgsOfCoversLeaves(opts: seq<CommandOption>, resolved: Json)
    decreases opts
    requires ArgsOf(opts, resolved).Success?
    ensures Covers(Leaves(opts), ArgsOf(opts, resolved).value.keyword)
  {
    if |opts| > 0 {
      match opts[0]
      case SubCommand(_, children) =>
        ArgsOfCoversLeaves(children, resolved);
        ArgsOfCoversLeaves(opts[1..], resolved);
        CoversMerge(Leaves(children), ArgsOf(children, resolved).value.keyword,
                    Leaves(opts[1..]), ArgsOf(opts[1..], resolved).value.keyword);
      case Leaf(kind, name, value) =>
        ArgsOfCoversLeaves(opts[1..], resolved);
        var key := KeywordName(name).value;
        var v := ResolveLeaf(kind, value, resolved).value;
        assert Covers([opts[0]], map[key := v]) by {
          forall i, k | 0 <= i < 1 && Binds([opts[0]][i], k) ensures k in map[key := v] {
            assert [opts[0]][i] == opts[0];
          }
        }
        CoversMerge([opts[0]], map[key := v], Leaves(opts[1..]), ArgsOf(opts[1..], resolved).value.keyword);
    }
  }

  /** On success every keyword argument is the resolved value of the last
      leaf with that name: later bindings replace earlier ones. */
  lemma {:induction false} ArgsOfKeywords(opts: seq<CommandOption>, resolved: Json)
    decreases opts
    requires ArgsOf(opts, resolved).Success?
    ensures Sourced(Leaves(opts), ArgsOf(opts, resolved).value.keyword, resolved)
  {
    if |opts| > 0 {
      match opts[0]
      case SubCommand(_, children) =>
        ArgsOfKeywords(children, resolved);
        ArgsOfKeywords(opts[1..], resolved);
        ArgsOfCoversLeaves(opts[1..], resolved);
        SourcedMerge(Leaves(children), ArgsOf(children, resolved).value.keyword,
                     Leaves(opts[1..]), ArgsOf(opts[1..], resolved).value.keyword, resolved);
      case Leaf(kind, name, value) =>
        ArgsOfKeywords(opts[1..], resolved);
        ArgsOfCoversLeaves(opts[1..], resolved);
        var v := ResolveLeaf(kind, value, resolved).value;
        var key := KeywordName(name).value;
        assert HasSource([opts[0]], key, v, resolved) by {
          assert Binds([opts[0]][0], key);
        }
        SourcedMerge([opts[0]], map[key := v], Leaves(opts[1..]), ArgsOf(opts[1..], resolved).value.keyword, resolved);
    }
  }

  /** Options absent, null or empty: no arguments at all. */
  lemma EmptyOptions(v: Json, resolved: Json)
    requires !Truthy(v)
    ensures ArgsOf(ParseOptionList(v), resolved) == Success(Args([], map[]))
  {
  }

  /** A plain option: `{"type": t, "name": n, "value": x}`. */
  function ValueOption(t: int, n: string, x: Json): Json {
    JObj(map["type" := JInt(t), "name" := JStr(n), "value" := x])
  }

  /** A sub-command or group: `{"type": t, "name": n, "options": children}`. */
  function GroupOption(t: int, n: string, children: seq<Json>): Json {
    JObj(map["type" := JInt(t), "name" := JStr(n), "options" := JArr(children)])
  }

  /** The options of `/a b x:1` read as a group `a` holding sub-command `b`
      holding the plain option `x`. */
  lemma NestedSubCommandParses()
    ensures ParseOptionList(JArr([GroupOption(SUB_COMMAND_GROUP, "a",
              [GroupOption(SUB_COMMAND, "b", [ValueOption(4, "x", JInt(1))])])]))
            == [SubCommand(JStr("a"), [SubCommand(JStr("b"), [Leaf(ValueLeaf, Some(JStr("x")), Some(JInt(1)))])])]
  {
    var x := ValueOption(4, "x", JInt(1));
    var b := GroupOption(SUB_COMMAND, "b", [x]);
    var a := GroupOption(SUB_COMMAND_GROUP, "a", [b]);
    var leaf := Leaf(ValueLeaf, Some(JStr("x")), Some(JInt(1)));
    assert ParseOption(x) == leaf;
    assert ParseOptionList(JArr([x])) == [leaf];
    var bNode := SubCommand(JStr("b"), [leaf]);
    assert ParseOption(b) == bNode;
    assert ParseOptionList(JArr([b])) == [bNode];
    assert ParseOption(a) == SubCommand(JStr("a"), [bNode]);
  }

  /** `/a b x:1`, a group `a` holding sub-command `b` with integer option
      `x`, is invoked as `handler(ctx, "a", "b", x=1)`. */
  lemma NestedSubCommandExample(resolved: Json)
    ensures ArgsOf(ParseOptionList(JArr([GroupOption(SUB_COMMAND_GROUP, "a",
              [GroupOption(SUB_COMMAND, "b", [ValueOption(4, "x", JInt(1))])])])), resolved)
            == Success(Args([Raw(JStr("a")), Raw(JStr("b"))], map["x" := Raw(JInt(1))]))
  {
    NestedSubCommandParses();
    var leaf := Leaf(ValueLeaf, Some(JStr("x")), Some(JInt(1)));
    var bNode := SubCommand(JStr("b"), [leaf]);
    var aNode := SubCommand(JStr("a"), [bNode]);
    assert [leaf][1..] == [] && [bNode][1..] == [] && [aNode][1..] == [];
    var kw := map["x" := Raw(JInt(1))];
    assert ArgsOf([], resolved) == Success(Args([], map[]));
    assert ResolveLeaf(ValueLeaf, Some(JInt(1)), resolved) == Success(Raw(JInt(1)));
    assert KeywordName(Some(JStr("x"))) == Success("x");
    assert kw + map[] == kw;
    assert map[] + kw == kw;
    assert ArgsOf([leaf], resolved) == Success(Args([], kw));
    var empty: seq<Entity> := [];
    assert [Raw(JStr("b"))] + empty + empty == [Raw(JStr("b"))];
    assert ArgsOf([bNode], resolved) == Success(Args([Raw(JStr("b"))], kw));
    assert [Raw(JStr("a"))] + [Raw(JStr("b"))] + empty == [Raw(JStr("a")), Raw(JStr("b"))];
    assert ArgsOf([aNode], resolved) == Success(Args([Raw(JStr("a")), Raw(JStr("b"))], kw));
  }

  /** Two options with the same name: the later value is the one passed. */
  lemma LaterBindingWins(resolved: Json)
    ensures ArgsOf([Leaf(ValueLeaf, Some(JStr("x")), Some(JInt(1))),
                    Leaf(ValueLeaf, Some(JStr("x")), Some(JInt(2)))], resolved)
            == Success(Args([], map["x" := Raw(JInt(2))]))
  {
    var first := Leaf(ValueLeaf, Some(JStr("x")), Some(JInt(1)));
    var second := Leaf(ValueLeaf, Some(JStr("x")), Some(JInt(2)));
    assert [first, second][1..] == [second];
    assert [second][1..] == [];
    assert ArgsOf([], resolved) == Success(Args([], map[]));
    assert ResolveLeaf(ValueLeaf, Some(JInt(2)), resolved) == Success(Raw(JInt(2)));
    assert ResolveLeaf(ValueLeaf, Some(JInt(1)), resolved) == Success(Raw(JInt(1)));
    assert KeywordName(Some(JStr("x"))) == Success("x");
    assert map["x" := Raw(JInt(2))] + map[] == map["x" := Raw(JInt(2))];
    assert map["x" := Raw(JInt(1))] + map["x" := Raw(JInt(2))] == map["x" := Raw(JInt(2))];
  }

  /** A user option is looked up in `resolved` before its missing name is
      noticed: an unresolvable user fails with the lookup's error. */
  lemma UnresolvedUserBeforeMissingName(resolved: Json, id: string)
    requires resolved.JObj? && "members" in resolved.fields && resolved.fields["members"].JObj?
    requires id !in resolved.fields["members"].fields
    ensures ArgsOf([Leaf(UserLeaf, None, Some(JStr(id)))], resolved) == Failure(KeyError(JStr(id)))
  {
  }
}

=== FILE: custom_ids.dfy ===
/** The custom-ID codec of `Context.parse_custom_id`
    (flask_discord_interactions/context.py:121-130): a component's custom ID
    is a newline-separated list of tokens whose first token routes the
    interaction to a handler and whose remaining tokens are that handler's
    state. */
module CustomIds {
  import opened Text

  const Delimiter: char := '\n'

  /** The decoded parts: the routing key and the full token list, which
      starts with the routing key again. */
  datatype CustomId = CustomId(primaryId: string, handlerState: seq<string>)

  /** `parse_custom_id`: `primary_id` is `custom_id.split("\n", 1)[0]` and
      `handler_state` is `custom_id.split("\n")`. */
  function ParseCustomId(customId: string): (r: CustomId)
    ensures |r.handlerState| >= 1 && r.handlerState[0] == r.primaryId
    ensures Delimiter !in r.primaryId
    ensures |r.primaryId| <= |customId| && r.primaryId == customId[..|r.primaryId|]
    ensures r.primaryId == customId <==> Delimiter !in customId
    ensures |r.handlerState| == Count(customId, Delimiter) + 1
    ensures forall i | 0 <= i < |r.handlerState| :: Delimiter !in r.handlerState[i]
    ensures Join(r.handlerState, Delimiter) == customId
  {
    SplitHeadIsBeforeFirst(customId, Delimiter);
    JoinSplit(customId, Delimiter);
    CustomId(BeforeFirst(customId, Delimiter), Split(customId, Delimiter))
  }

  /** The inverse a handler registration uses to build a custom ID: the
      routing key followed by the state tokens, newline-separated. */
  function EncodeCustomId(primaryId: string, state: seq<string>): string {
    Join([primaryId] + state, Delimiter)
  }

  /** Decoding an encoded custom ID gives back the routing key and the state
      tokens, provided no token contains a newline (the format has no
      escaping). */
  lemma DecodeEncode(primaryId: string, state: seq<string>)
    requires Delimiter !in primaryId
    requires forall i | 0 <= i < |state| :: Delimiter !in state[i]
    ensures ParseCustomId(EncodeCustomId(primaryId, state))
      == CustomId(primaryId, [primaryId] + state)
  {
    var parts := [primaryId] + state;
    assert forall i | 0 <= i < |parts| :: Delimiter !in parts[i] by {
      forall i | 0 <= i < |parts| ensures Delimiter !in parts[i] {
        if i > 0 { assert parts[i] == state[i - 1]; }
      }
    }
    SplitJoin(parts, Delimiter);
  }

  /** A state token containing a newline does not survive the round trip:
      it comes back as two tokens. */
  lemma NewlineInStateSplitsToken()
    ensures ParseCustomId(EncodeCustomId("k", ["a\nb"])).handlerState == ["k", "a", "b"]
  {
    assert ["k"] + ["a\nb"] == ["k", "a\nb"];
    assert ["k", "a\nb"][1..] == ["a\nb"];
    assert EncodeCustomId("k", ["a\nb"]) == "k\na\nb";
    assert Join(["b"], Delimiter) == "b";
    assert Join(["a", "b"], Delimiter) == "a\nb";
    assert Join(["k", "a", "b"], Delimiter) == "k\na\nb";
    SplitJoin(["k", "a", "b"], Delimiter);
  }

  /** An empty custom ID routes to the empty key with no state. */
  lemma EmptyCustomId()
    ensures ParseCustomId("") == CustomId("", [""])
  {
  }
}

=== FILE: entities.dfy ===
/** The platform objects the core parses out of a payload: User and Member
    (flask_discord_interactions/models/user.py), Role (models/role.py), and
    Channel and Message, whose classes are not part of this model and appear
    only as records whose absent fields read as null.

    Every loader follows the dataclass loader the models share: each declared
    field is read from the dict under its own name, a field the dict lacks is
    null, keys that are not fields are ignored, and a value that is not a
    dict raises TypeError. */
module Entities {
  import opened JsonValues
  import opened Outcomes
  import opened Text
  import opened PyOps

  datatype User = User(
    id: Json,
    username: Json,
    discriminator: Json,
    avatarHash: Json,
    bot: Json,
    system: Json,
    mfaEnabled: Json,
    locale: Json,
    flags: Json,
    premiumType: Json,
    publicFlags: Json)

  /** A guild member: the user fields plus the guild-specific ones. */
  datatype Member = Member(
    user: User,
    nick: Json,
    roles: Json,
    joinedAt: Json,
    premiumSince: Json,
    permissions: Json,
    deaf: Json,
    mute: Json,
    pending: Json)

  datatype Role = Role(
    id: Json,
    name: Json,
    color: Json,
    hoist: Json,
    position: Json,
    managed: Json,
    mentionable: Json,
    tags: Json)

  /** A Channel or Message: only the null-defaulting field access is modelled. */
  datatype Record = Record(fields: map<string, Json>) {
    function Field(name: string): Json {
      GetOr(fields, name, JNull)
    }
  }

  /** What an argument or a target can hold: a parsed entity, or a raw JSON
      value passed through unchanged. */
  datatype Entity =
    | Raw(json: Json)
    | MemberEntity(member: Member)
    | ChannelEntity(channel: Record)
    | RoleEntity(role: Role)
    | MessageEntity(message: Record)

  const UserFieldNames: set<string> :=
    {"id", "username", "discriminator", "avatar_hash", "bot", "system",
     "mfa_enabled", "locale", "flags", "premium_type", "public_flags"}

  const MemberFieldNames: set<string> :=
    {"nick", "roles", "joined_at", "premium_since", "permissions", "deaf",
     "mute", "pending"}

  /** A user field by its declared (snake_case) name. */
  function UserField(u: User, name: string): Json {
    match name
    case "id" => u.id
    case "username" => u.username
    case "discriminator" => u.discriminator
    case "avatar_hash" => u.avatarHash
    case "bot" => u.bot
    case "system" => u.system
    case "mfa_enabled" => u.mfaEnabled
    case "locale" => u.locale
    case "flags" => u.flags
    case "premium_type" => u.premiumType
    case "public_flags" => u.publicFlags
    case _ => JNull
  }

  /** A member-only field by its declared name. */
  function MemberField(m: Member, name: string): Json {
    match name
    case "nick" => m.nick
    case "roles" => m.roles
    case "joined_at" => m.joinedAt
    case "premium_since" => m.premiumSince
    case "permissions" => m.permissions
    case "deaf" => m.deaf
    case "mute" => m.mute
    case "pending" => m.pending
    case _ => JNull
  }

  /** The dataclass loader for User. */
  function LoadUser(m: map<string, Json>): (u: User)
    ensures forall k | k in UserFieldNames :: UserField(u, k) == GetOr(m, k, JNull)
  {
    User(GetOr(m, "id", JNull), GetOr(m, "username", JNull),
         GetOr(m, "discriminator", JNull), GetOr(m, "avatar_hash", JNull),
         GetOr(m, "bot", JNull), GetOr(m, "system", JNull),
         GetOr(m, "mfa_enabled", JNull), GetOr(m, "locale", JNull),
         GetOr(m, "flags", JNull), GetOr(m, "premium_type", JNull),
         GetOr(m, "public_flags", JNull))
  }

  // ---------------------------------------------------------------------
  // User.from_dict
  // ---------------------------------------------------------------------

  /** Whether `{**data, **data.get("user", {})}` can be formed: `data` is a
      dict and its `user` entry, if any, is a dict too. */
  predicate Mergeable(data: Json) {
    data.JObj? && ("user" !in data.fields || data.fields["user"].JObj?)
  }

  /** The value a key has after the nested `user` dict is laid over the top
      level: the nested value when the nested dict has the key, otherwise the
      top-level value, otherwise null. */
  function NestedFirst(data: Json, k: string): Json
    requires Mergeable(data)
  {
    var top := data.fields;
    if "user" in top && k in top["user"].fields then top["user"].fields[k]
    else GetOr(top, k, JNull)
  }

  /** The dict `User.from_dict` hands to the loader: the nested `user` dict
      laid over the top level, and `avatar_hash` set to the merged `avatar`
      value (null when absent). */
  function MergedRecord(data: Json): (r: Result<map<string, Json>>)
    ensures r.Success? <==> Mergeable(data)
    ensures r.Success? ==>
      forall k | k != "avatar_hash" :: GetOr(r.value, k, JNull) == NestedFirst(data, k)
    ensures r.Success? ==> GetOr(r.value, "avatar_hash", JNull) == NestedFirst(data, "avatar")
  {
    var top :- AsDict(data);
    var nested :- AsDict(GetOr(top, "user", JObj(map[])));
    var merged := top + nested;
    Success(merged["avatar_hash" := GetOr(merged, "avatar", JNull)])
  }

  /** `User.from_dict`. Keys of a nested `user` dict win over top-level keys
      of the same name, and the hash is read from `avatar`. */
  function UserFromDict(data: Json): (r: Result<User>)
    ensures r.Success? <==> Mergeable(data)
    ensures r.Success? ==>
      forall k | k in UserFieldNames && k != "avatar_hash" ::
        UserField(r.value, k) == NestedFirst(data, k)
    ensures r.Success? ==> r.value.avatarHash == NestedFirst(data, "avatar")
  {
    var merged :- MergedRecord(data);
    Success(LoadUser(merged))
  }

  // ---------------------------------------------------------------------
  // Member.from_dict and Member.__post_init__
  // ---------------------------------------------------------------------

  /** `Member.__post_init__`: a permissions value that arrived as a string
      is replaced by `int(...)` of it; anything else is kept. */
  function CoercePermissions(v: Json): (r: Result<Json>)
    ensures !v.JStr? ==> r == Success(v)
    ensures v.JStr? ==> (r.Success? <==> ParseInt(v.s).Success?)
    ensures v.JStr? && r.Success? ==> r.value == JInt(ParseInt(v.s).value)
  {
    match v
    case JStr(s) =>
      var n :- ParseInt(s);
      Success(JInt(n))
    case _ => Success(v)
  }

  /** The dataclass loader for Member, given the already coerced
      permissions value. */
  function LoadMember(m: map<string, Json>, permissions: Json): (r: Member)
    ensures r.user == LoadUser(m) && r.permissions == permissions
    ensures forall k | k in MemberFieldNames && k != "permissions" ::
      MemberField(r, k) == GetOr(m, k, JNull)
  {
    Member(
      LoadUser(m),
      GetOr(m, "nick", JNull), GetOr(m, "roles", JNull),
      GetOr(m, "joined_at", JNull), GetOr(m, "premium_since", JNull),
      permissions,
      GetOr(m, "deaf", JNull), GetOr(m, "mute", JNull),
      GetOr(m, "pending", JNull))
  }

  /** `Member.from_dict`: the same merge as `User.from_dict`, the dataclass
      loader for all Member fields, then `__post_init__`. */
  function MemberFromDict(data: Json): (r: Result<Member>)
    ensures r.Success? ==> Mergeable(data)
    ensures r.Success? ==> UserFromDict(data) == Success(r.value.user)
    ensures r.Success? ==>
      forall k | k in MemberFieldNames && k != "permissions" ::
        MemberField(r.value, k) == NestedFirst(data, k)
    ensures Mergeable(data) ==>
      (r.Success? <==> CoercePermissions(NestedFirst(data, "permissions")).Success?)
    ensures r.Success? ==>
      r.value.permissions == CoercePermissions(NestedFirst(data, "permissions")).value
  {
    var merged :- MergedRecord(data);
    var permissions :- CoercePermissions(GetOr(merged, "permissions", JNull));
    Success(LoadMember(merged, permissions))
  }

  /** A permissions integer sent as its decimal string is held as that
      integer once the member is built. */
  lemma PermissionsStringBecomesInt(data: Json, n: int)
    requires Mergeable(data)
    requires NestedFirst(data, "permissions") == JStr(IntToString(n))
    ensures MemberFromDict(data).Success?
    ensures MemberFromDict(data).value.permissions == JInt(n)
  {
    ParseIntRoundTrip(n);
  }

  // ---------------------------------------------------------------------
  // Role, Channel, Message
  // ---------------------------------------------------------------------

  const RoleFieldNames: set<string> :=
    {"id", "name", "color", "hoist", "position", "managed", "mentionable", "tags"}

  /** A role field by its declared name. */
  function RoleField(role: Role, name: string): Json {
    match name
    case "id" => role.id
    case "name" => role.name
    case "color" => role.color
    case "hoist" => role.hoist
    case "position" => role.position
    case "managed" => role.managed
    case "mentionable" => role.mentionable
    case "tags" => role.tags
    case _ => JNull
  }

  /** `Role.from_dict`: the dataclass loader for Role. */
  function RoleFromDict(data: Json): (r: Result<Role>)
    ensures r.Success? <==> data.JObj?
    ensures r.Success? ==>
      forall k | k in RoleFieldNames :: RoleField(r.value, k) == GetOr(data.fields, k, JNull)
  {
    var m :- AsDict(data);
    Success(Role(GetOr(m, "id", JNull), GetOr(m, "name", JNull),
                 GetOr(m, "color", JNull), GetOr(m, "hoist", JNull),
                 GetOr(m, "position", JNull), GetOr(m, "managed", JNull),
                 GetOr(m, "mentionable", JNull), GetOr(m, "tags", JNull)))
  }

  /** `Channel.from_dict` and `Message.from_dict`, abstracted: every field
      the dict carries is kept, every other field reads as null. */
  function RecordFromDict(data: Json): (r: Result<Record>)
    ensures r.Success? <==> data.JObj?
    ensures r.Success? ==> forall k :: r.value.Field(k) == GetOr(data.fields, k, JNull)
  {
    var m :- AsDict(data);
    Success(Record(m))
  }

  // ---------------------------------------------------------------------
  // Properties
  // ---------------------------------------------------------------------

  /** `User.display_name`: the user's declared `username` field. */
  function DisplayName(u: User): (r: Json)
    ensures r == UserField(u, "username")
  {
    u.username
  }

  /** The display name of a user built from a dict is its `username`, read
      after the nested `user` dict is laid over the top level. */
  lemma UserDisplayNameFromDict(data: Json)
    requires UserFromDict(data).Success?
    ensures DisplayName(UserFromDict(data).value) == NestedFirst(data, "username")
  {
    assert UserField(UserFromDict(data).value, "username") == NestedFirst(data, "username");
  }

  /** `Member.display_name`: `nick or username`. */
  function MemberDisplayName(m: Member): (r: Json)
    ensures r == MemberField(m, "nick") || r == UserField(m.user, "username")
    ensures Truthy(MemberField(m, "nick")) <==> r == m.nick && Truthy(r)
    ensures !Truthy(MemberField(m, "nick")) ==> r == UserField(m.user, "username")
  {
    if Truthy(m.nick) then m.nick else DisplayName(m.user)
  }

  /** The display name of a member built from a dict: the nickname when it
      is truthy (a non-empty string), the username otherwise, each read
      after the nested `user` dict is laid over the top level. */
  lemma MemberDisplayNameFromDict(data: Json)
    requires Mergeable(data) && CoercePermissions(NestedFirst(data, "permissions")).Success?
    ensures MemberFromDict(data).Success?
    ensures Truthy(NestedFirst(data, "nick")) ==>
      MemberDisplayName(MemberFromDict(data).value) == NestedFirst(data, "nick")
    ensures !Truthy(NestedFirst(data, "nick")) ==>
      MemberDisplayName(MemberFromDict(data).value) == NestedFirst(data, "username")
    ensures NestedFirst(data, "nick") == JStr("") ==>
      MemberDisplayName(MemberFromDict(data).value)
        == DisplayName(UserFromDict(data).value)
  {
    var m := MemberFromDict(data).value;
    assert MemberField(m, "nick") == NestedFirst(data, "nick");
    assert UserField(m.user, "username") == NestedFirst(data, "username");
  }

  const DefaultAvatarPrefix: string := "https://cdn.discordapp.com/embed/avatars/"
  const AvatarPrefix: string := "https://cdn.discordapp.com/avatars/"

  /** `User.avatar_url`. Without a hash it is one of the five default
      avatars, chosen by `int(discriminator) % 5`; with a hash it embeds the
      user id and the hash and ends in `.gif` exactly when the hash starts
      with `a_` (an animated avatar), in `.png` otherwise. */
  function AvatarUrl(u: User): (r: Result<string>)
    ensures u.avatarHash.JNull? ==> (r.Success? <==> Int(u.discriminator).Success?)
    ensures u.avatarHash.JNull? && r.Success? ==>
      && StartsWith(r.value, DefaultAvatarPrefix)
      && |r.value| == |DefaultAvatarPrefix| + 5
      && r.value[|DefaultAvatarPrefix|] as int - '0' as int == Int(u.discriminator).value % 5
      && EndsWith(r.value, ".png")
    ensures !u.avatarHash.JNull? ==>
      && r.Success?
      && StartsWith(r.value, AvatarPrefix + Str(u.id) + "/" + Str(u.avatarHash))
      && |r.value| == |AvatarPrefix + Str(u.id) + "/" + Str(u.avatarHash)| + 4
      && (EndsWith(r.value, ".gif") <==> StartsWith(Str(u.avatarHash), "a_"))
      && (EndsWith(r.value, ".png") <==> !StartsWith(Str(u.avatarHash), "a_"))
  {
    if u.avatarHash.JNull? then
      var discriminator :- Int(u.discriminator);
      Success(DefaultAvatarPrefix + IntToString(discriminator % 5) + ".png")
    else
      var hash := Str(u.avatarHash);
      var stem := AvatarPrefix + Str(u.id) + "/" + hash;
      Success(stem + (if StartsWith(hash, "a_") then ".gif" else ".png"))
  }
}

=== FILE: handler_args.dfy ===
/** Handler-state coercion, `Context.create_handler_args`
    (flask_discord_interactions/context.py:230-268). The handler's signature
    is given as the list of its parameters' annotation tags instead of being
    read by reflection; the first parameter receives the Context itself. */
module HandlerArgs {
  import opened JsonValues
  import opened Outcomes
  import opened Text

  /** A parameter annotation as the coercion distinguishes it. */
  datatype ParamType = IntParam | BoolParam | OtherParam

  /** One state token converted for a parameter: `int` parses it, `bool`
      accepts exactly "True", "False" and "None", any other annotation keeps
      the string. */
  function CoerceToken(p: ParamType, token: string): (r: Result<Json>)
    ensures p.OtherParam? ==> r == Success(JStr(token))
    ensures p.IntParam? ==> (r.Success? <==> ParseInt(token).Success?)
    ensures p.IntParam? && r.Success? ==> r.value == JInt(ParseInt(token).value)
    ensures p.BoolParam? ==> (r.Success? <==> token == "True" || token == "False" || token == "None")
    ensures p.BoolParam? && r.Failure? ==> r.error == InvalidBool(token)
    ensures p.BoolParam? && r.Success? ==>
      r.value == (if token == "True" then JBool(true) else if token == "False" then JBool(false) else JNull)
  {
    match p
    case IntParam =>
      var n :- ParseInt(token);
      Success(JInt(n))
    case BoolParam =>
      if token == "True" then Success(JBool(true))
      else if token == "False" then Success(JBool(false))
      else if token == "None" then Success(JNull)
      else Failure(InvalidBool(token))
    case OtherParam => Success(JStr(token))
  }

  /** The positional loop over `zip(tokens, params)`: token `i` is coerced
      for parameter `i`, tokens beyond the parameters stay strings, and the
      first token that cannot be coerced aborts the whole list with its
      error. */
  function CoerceTokens(tokens: seq<string>, params: seq<ParamType>): (r: Result<seq<Json>>)
    ensures r.Success? <==>
      forall i | 0 <= i < |tokens| && i < |params| :: CoerceToken(params[i], tokens[i]).Success?
    ensures r.Success? ==> |r.value| == |tokens|
    ensures r.Success? ==>
      forall i | 0 <= i < |tokens| && i < |params| ::
        CoerceToken(params[i], tokens[i]) == Success(r.value[i])
    ensures r.Success? ==>
      forall i | |params| <= i < |tokens| :: r.value[i] == JStr(tokens[i])
    ensures r.Failure? ==>
      exists i | 0 <= i < |tokens| && i < |params| ::
        && CoerceToken(params[i], tokens[i]) == Failure(r.error)
        && forall j | 0 <= j < i :: CoerceToken(params[j], tokens[j]).Success?
  {
    if |tokens| == 0 then Success([])
    else if |params| == 0 then Success(seq(|tokens|, i requires 0 <= i < |tokens| => JStr(tokens[i])))
    else
      var head :- CoerceToken(params[0], tokens[0]);
      var tail :- CoerceTokens(tokens[1..], params[1..]);
      Success([head] + tail)
  }

  /** Python `s[1:]`. */
  function DropFirst<T>(s: seq<T>): seq<T> {
    if |s| == 0 then [] else s[1..]
  }

  /** `create_handler_args`: the state tokens after the routing key, coerced
      against the handler's parameters after the Context parameter. */
  function CreateHandlerArgs(handlerState: seq<string>, params: seq<ParamType>): (r: Result<seq<Json>>)
    ensures r.Success? ==> |r.value| == |DropFirst(handlerState)|
  {
    CoerceTokens(DropFirst(handlerState), DropFirst(params))
  }

  /** The coercion fails exactly when some state token meets a parameter it
      cannot be converted for; when it succeeds, token `i + 1` of the state
      becomes argument `i`, converted for parameter `i + 1`, and a token
      with no parameter is passed on unchanged. */
  lemma CreateHandlerArgsSpec(handlerState: seq<string>, params: seq<ParamType>)
    requires |handlerState| >= 1
    ensures CreateHandlerArgs(handlerState, params).Success? <==>
      forall i | 1 <= i < |handlerState| && i < |params| ::
        CoerceToken(params[i], handlerState[i]).Success?
    ensures CreateHandlerArgs(handlerState, params).Success? ==>
      var args := CreateHandlerArgs(handlerState, params).value;
      && |args| == |handlerState| - 1
      && (forall i | 1 <= i < |handlerState| && i < |params| ::
            CoerceToken(params[i], handlerState[i]) == Success(args[i - 1]))
      && (forall i | 1 <= i < |handlerState| && i >= |params| ::
            args[i - 1] == JStr(handlerState[i]))
  {
    var tokens := DropFirst(handlerState);
    var ps := DropFirst(params);
    var r := CoerceTokens(tokens, ps);
    assert forall i | 1 <= i < |handlerState| :: tokens[i - 1] == handlerState[i];
    assert forall i | 1 <= i < |params| :: ps[i - 1] == params[i];
    if r.Success? {
      forall i | 1 <= i < |handlerState| && i < |params|
        ensures CoerceToken(params[i], handlerState[i]).Success?
      {
        assert CoerceToken(ps[i - 1], tokens[i - 1]).Success?;
      }
    } else {
      var k :| 0 <= k < |tokens| && k < |ps| && CoerceToken(ps[k], tokens[k]).Failure?;
      assert CoerceToken(params[k + 1], handlerState[k + 1]).Failure?;
    }
  }

  /** A handler whose parameters after the Context are all un-annotated (or
      of any type but int and bool) receives its state tokens verbatim. */
  lemma UntypedHandlerTakesTokensVerbatim(handlerState: seq<string>, params: seq<ParamType>)
    requires |handlerState| >= 1
    requires forall i | 1 <= i < |params| :: params[i].OtherParam?
    ensures CreateHandlerArgs(handlerState, params)
      == Success(seq(|handlerState| - 1, i requires 0 <= i < |handlerState| - 1 => JStr(handlerState[i + 1])))
  {
    CreateHandlerArgsSpec(handlerState, params);
    var args := CreateHandlerArgs(handlerState, params).value;
    var expected := seq(|handlerState| - 1, i requires 0 <= i < |handlerState| - 1 => JStr(handlerState[i + 1]));
    forall i | 0 <= i < |args| ensures args[i] == expected[i] {
      if i + 1 < |params| {
        assert CoerceToken(params[i + 1], handlerState[i + 1]) == Success(args[i]);
      }
    }
    assert |args| == |expected|;
    assert args == expected;
  }

  /** State "key\n5\nTrue" for a handler `(ctx, n: int, flag: bool)` gives
      the arguments `5, True`; likewise for the decimal text of any other
      integer in place of 5. */
  lemma IntAndBoolExample(n: int)
    ensures CreateHandlerArgs(["key", IntToString(n), "True"], [OtherParam, IntParam, BoolParam])
      == Success([JInt(n), JBool(true)])
  {
    var digits := IntToString(n);
    ParseIntRoundTrip(n);
    assert CoerceToken(IntParam, digits) == Success(JInt(n));
    assert CoerceToken(BoolParam, "True") == Success(JBool(true));
    assert DropFirst(["key", digits, "True"]) == [digits, "True"];
    assert DropFirst([OtherParam, IntParam, BoolParam]) == [IntParam, BoolParam];
    var r := CoerceTokens([digits, "True"], [IntParam, BoolParam]);
    assert r.Success?;
    assert CoerceToken(IntParam, digits) == Success(r.value[0]);
    assert CoerceToken(BoolParam, "True") == Success(r.value[1]);
    assert r.value == [JInt(n), JBool(true)];
  }

  /** A bool parameter given "maybe" raises the invalid-bool error. */
  lemma InvalidBoolExample()
    ensures CreateHandlerArgs(["key", "maybe"], [OtherParam, BoolParam])
      == Failure(InvalidBool("maybe"))
  {
  }
}

=== FILE: interactions.dfy ===
/** The interaction context: `Context.from_data`, `create_args`,
    `create_handler_args`, `followup_url`, `get_command` and the guard the
    followup actions share (flask_discord_interactions/context.py). */
module Interactions {
  import opened JsonValues
  import opened Outcomes
  import opened Text
  import opened PyOps
  import opened Entities
  import opened CustomIds
  import opened HandlerArgs
  import opened Resolved
  import opened Arguments

  /** Application command types. */
  const CHAT_INPUT := 1

  /** Configuration keys the context reads from its application. */
  const BaseUrlKey := "DISCORD_BASE_URL"
  const ClientIdKey := "DISCORD_CLIENT_ID"
  const DontRegisterKey := "DONT_REGISTER_WITH_DISCORD"

  /** The parts of the Flask application the context consults: its
      configuration and the registered commands' ids, by command name. */
  datatype App = App(config: map<string, Json>, commandIds: map<string, Json>)

  /** A parsed interaction. The payload's fields are kept as sent; the
      custom ID, resolved section and target are parsed. */
  datatype Context = Context(
    app: Option<App>,
    author: Member,
    id: Json,
    kind: Json,
    token: Json,
    channelId: Json,
    guildId: Json,
    options: Json,
    values: Json,
    resolved: Json,
    commandName: Json,
    commandId: Json,
    customId: string,
    primaryId: string,
    handlerState: seq<string>,
    tables: ResolvedSet,
    targetId: Json,
    target: Option<Entity>,
    data: Json)

  // ---------------------------------------------------------------------
  // from_data
  // ---------------------------------------------------------------------

  /** The payload as a dict: a missing payload is an empty one. */
  function Payload(data: Json): (r: Result<map<string, Json>>)
    ensures data.JNull? ==> r == Success(map[])
    ensures data.JObj? ==> r == Success(data.fields)
    ensures r.Success? <==> data.JNull? || data.JObj?
  {
    if data.JNull? then Success(map[]) else AsDict(data)
  }

  /** `data.get("data", {})`: the command data, which must be a dict. */
  function CommandData(payload: map<string, Json>): Result<map<string, Json>> {
    AsDict(GetOr(payload, "data", JObj(map[])))
  }

  /** `x or default`. */
  function OrDefault(x: Json, default: Json): (r: Json)
    ensures Truthy(x) ==> r == x
    ensures !Truthy(x) ==> r == default
  {
    if Truthy(x) then x else default
  }

  /** The custom ID `parse_custom_id` splits: `data.custom_id or ""`, which
      has to be a string for `split` to exist. */
  function CustomIdText(inner: map<string, Json>): (r: Result<string>)
    ensures !Truthy(GetOr(inner, "custom_id", JNull)) ==> r == Success("")
    ensures GetOr(inner, "custom_id", JNull).JStr? ==> r == Success(GetOr(inner, "custom_id", JNull).s)
    ensures r.Success? <==> !Truthy(GetOr(inner, "custom_id", JNull)) || GetOr(inner, "custom_id", JNull).JStr?
  {
    match OrDefault(GetOr(inner, "custom_id", JNull), JStr(""))
    case JStr(s) => Success(s)
    case _ => Failure(TypeError("str custom_id"))
  }

  /** `Context.from_data`: read the payload's fields with their defaults,
      then parse the custom ID, the resolved section and the target, in
      that order. */
  function FromData(app: Option<App>, data: Json): (r: Result<Context>)
    ensures r.Success? ==> Payload(data).Success? && CommandData(Payload(data).value).Success?
    ensures r.Success? ==>
      var payload := Payload(data).value;
      var inner := CommandData(payload).value;
      var c := r.value;
      && MemberFromDict(GetOr(payload, "member", JObj(map[]))) == Success(c.author)
      && c.id == GetOr(payload, "id", JNull)
      && c.token == GetOr(payload, "token", JNull)
      && c.channelId == GetOr(payload, "channel_id", JNull)
      && c.guildId == GetOr(payload, "guild_id", JNull)
      && c.options == GetOr(inner, "options", JNull)
      && c.commandName == GetOr(inner, "name", JNull)
      && c.commandId == GetOr(inner, "id", JNull)
      && c.targetId == GetOr(inner, "target_id", JNull)
      && (Truthy(GetOr(inner, "type", JNull)) ==> c.kind == inner["type"])
      && (!Truthy(GetOr(inner, "type", JNull)) ==> c.kind == JInt(CHAT_INPUT))
      && c.values == GetOr(inner, "values", JArr([]))
      && c.resolved == GetOr(inner, "resolved", JObj(map[]))
      && ("custom_id" in inner && inner["custom_id"].JStr? ==> c.customId == inner["custom_id"].s)
      && (!Truthy(GetOr(inner, "custom_id", JNull)) ==> c.customId == "")
      && c.app == app
    ensures r.Success? ==>
      var c := r.value;
      && c.primaryId == BeforeFirst(c.customId, Delimiter)
      && c.handlerState == Split(c.customId, Delimiter)
      && ParseResolved(c.resolved) == Success(c.tables)
      && ParseTarget(c.kind, c.targetId, c.tables) == Success(c.target)
  {
    var payload :- Payload(data);
    var author :- MemberFromDict(GetOr(payload, "member", JObj(map[])));
    var inner :- CommandData(payload);
    var customId :- CustomIdText(inner);
    var parsed := ParseCustomId(customId);
    SplitHeadIsBeforeFirst(customId, Delimiter);
    var resolved := GetOr(inner, "resolved", JObj(map[]));
    var tables :- ParseResolved(resolved);
    var kind := OrDefault(GetOr(inner, "type", JNull), JInt(CHAT_INPUT));
    var targetId := GetOr(inner, "target_id", JNull);
    var target :- ParseTarget(kind, targetId, tables);
    Success(Context(
      app, author,
      GetOr(payload, "id", JNull), kind, GetOr(payload, "token", JNull),
      GetOr(payload, "channel_id", JNull), GetOr(payload, "guild_id", JNull),
      GetOr(inner, "options", JNull), GetOr(inner, "values", JArr([])), resolved,
      GetOr(inner, "name", JNull), GetOr(inner, "id", JNull),
      customId, parsed.primaryId, parsed.handlerState,
      tables, targetId, target, JObj(payload)))
  }

  /** A payload without any command data builds a chat-input context with
      no options, no values, no resolved entities, no target and an empty
      custom ID whose only token is the empty routing key. */
  lemma FromDataDefaults(app: Option<App>)
    ensures FromData(app, JNull).Success?
    ensures var c := FromData(app, JNull).value;
      && c.kind == JInt(CHAT_INPUT)
      && c.values == JArr([]) && c.resolved == JObj(map[]) && c.options == JNull
      && c.customId == "" && c.primaryId == "" && c.handlerState == [""]
      && c.tables == EmptyResolvedSet && c.target == None
  {
    var empty: map<string, Json> := map[];
    assert Payload(JNull) == Success(empty);
    assert MemberFromDict(JObj(empty)).Success?;
    assert CommandData(empty) == Success(empty);
    assert CustomIdText(empty) == Success("");
    EmptyCustomId();
    EmptyResolvedIsEmpty();
    assert ParseTarget(JInt(CHAT_INPUT), JNull, EmptyResolvedSet) == Success(None);
  }

  /** The payload fails to load exactly when one of the stages raises: a
      payload or command data that is not a dict, a member that cannot be
      built, a custom ID that is not a string, a resolved section that does
      not parse, or a missing target. */
  lemma FromDataSucceedsIff(app: Option<App>, data: Json)
    ensures FromData(app, data).Success? <==>
      && Payload(data).Success?
      && MemberFromDict(GetOr(Payload(data).value, "member", JObj(map[]))).Success?
      && CommandData(Payload(data).value).Success?
      && var inner := CommandData(Payload(data).value).value;
      && CustomIdText(inner).Success?
      && ParseResolved(GetOr(inner, "resolved", JObj(map[]))).Success?
      && ParseTarget(OrDefault(GetOr(inner, "type", JNull), JInt(CHAT_INPUT)),
                     GetOr(inner, "target_id", JNull),
                     ParseResolved(GetOr(inner, "resolved", JObj(map[]))).value).Success?
  {
  }

  // ---------------------------------------------------------------------
  // create_args and create_handler_args
  // ---------------------------------------------------------------------

  /** `create_args`: a slash command's arguments come from its option tree;
      a user or message command is passed its target alone; any other
      interaction has no arguments (`None`). */
  function CreateArgs(c: Context): (r: Result<Option<Args>>)
    ensures EqualsInt(c.kind, CHAT_INPUT) ==>
      (r.Success? <==> ArgsOf(ParseOptionList(c.options), c.resolved).Success?)
    ensures EqualsInt(c.kind, CHAT_INPUT) && r.Success? ==>
      r.value == Some(ArgsOf(ParseOptionList(c.options), c.resolved).value)
    ensures !EqualsInt(c.kind, CHAT_INPUT) && !EqualsInt(c.kind, USER) && !EqualsInt(c.kind, MESSAGE) ==>
      r == Success(None)
  {
    if EqualsInt(c.kind, CHAT_INPUT) then
      var args :- ArgsOf(ParseOptionList(c.options), c.resolved);
      Success(Some(args))
    else if EqualsInt(c.kind, USER) || EqualsInt(c.kind, MESSAGE) then
      var target := match c.target case Some(e) => e case None => Raw(JNull);
      Success(Some(Args([target], map[])))
    else
      Success(None)
  }

  /** A user or message command whose target was parsed as `from_data`
      parses it is invoked with exactly one positional argument, the member
      or message its target id names, and no keyword arguments. */
  lemma TargetCommandArgs(c: Context)
    requires EqualsInt(c.kind, USER) || EqualsInt(c.kind, MESSAGE)
    requires ParseTarget(c.kind, c.targetId, c.tables) == Success(c.target)
    ensures c.targetId.JStr?
    ensures EqualsInt(c.kind, USER) ==>
      CreateArgs(c) == Success(Some(Args([MemberEntity(c.tables.members[c.targetId.s])], map[])))
    ensures EqualsInt(c.kind, MESSAGE) ==>
      CreateArgs(c) == Success(Some(Args([MessageEntity(c.tables.messages[c.targetId.s])], map[])))
  {
  }

  /** The `resolved` section of a message command on message "m1". */
  function OneMessage(message: Json): Json {
    JObj(map["messages" := JObj(map["m1" := message])])
  }

  lemma OneMessageParses(message: Json)
    requires message.JObj?
    ensures ParseResolved(OneMessage(message)).Success?
    ensures ParseResolved(OneMessage(message)).value.messages == map["m1" := Record(message.fields)]
  {
    var none: map<string, Json> := map[];
    assert none.Keys == {};
    var messageData := map["m1" := message];
    var sections := map["messages" := JObj(messageData)];
    assert GetOr(sections, "members", JObj(none)) == JObj(none);
    assert IteratedIds(JObj(none)) == Success({});
    assert GetOr(sections, "channels", JObj(none)) == JObj(none);
    assert GetOr(sections, "roles", JObj(none)) == JObj(none);
    assert GetOr(sections, "messages", JObj(none)) == JObj(messageData);
    var r := ParseResolved(JObj(sections));
    assert r.Success?;
    assert r.value.messages.Keys == {"m1"};
    assert RecordFromDict(message) == Success(Record(message.fields));
    assert r.value.messages["m1"] == Record(message.fields);
  }

  /** The command data of a message command on message "m1". */
  function MessageCommandData(message: Json): map<string, Json> {
    map["type" := JInt(MESSAGE), "target_id" := JStr("m1"), "resolved" := OneMessage(message)]
  }

  /** The stages of `from_data` on the payload `{"data": inner}`. */
  lemma MessageCommandStages(message: Json)
    ensures var inner := MessageCommandData(message);
      var payload := map["data" := JObj(inner)];
      && Payload(JObj(payload)) == Success(payload)
      && GetOr(payload, "member", JObj(map[])) == JObj(map[])
      && CommandData(payload) == Success(inner)
      && CustomIdText(inner) == Success("")
      && OrDefault(GetOr(inner, "type", JNull), JInt(CHAT_INPUT)) == JInt(MESSAGE)
      && GetOr(inner, "target_id", JNull) == JStr("m1")
      && GetOr(inner, "resolved", JObj(map[])) == OneMessage(message)
  {
  }

  lemma EmptyMemberLoads()
    ensures MemberFromDict(JObj(map[])).Success?
  {
    assert Mergeable(JObj(map[]));
    assert NestedFirst(JObj(map[]), "permissions") == JNull;
  }

  lemma MessageCommandLoads(app: Option<App>, message: Json)
    requires message.JObj?
    ensures FromData(app, JObj(map["data" := JObj(MessageCommandData(message))])).Success?
  {
    var inner := MessageCommandData(message);
    var data := JObj(map["data" := JObj(inner)]);
    MessageCommandStages(message);
    EmptyMemberLoads();
    OneMessageParses(message);
    var tables := ParseResolved(OneMessage(message)).value;
    assert ParseTarget(JInt(MESSAGE), JStr("m1"), tables).Success?;
    FromDataSucceedsIff(app, data);
  }

  /** A message command on message "m1" (say, one whose content is "hi")
      targets that message and passes it as the only argument. */
  lemma MessageCommandExample(app: Option<App>, message: Json)
    requires message.JObj?
    ensures var data := JObj(map["data" := JObj(MessageCommandData(message))]);
      && FromData(app, data).Success?
      && FromData(app, data).value.target == Some(MessageEntity(Record(message.fields)))
      && CreateArgs(FromData(app, data).value)
           == Success(Some(Args([MessageEntity(Record(message.fields))], map[])))
  {
    var payload := map["data" := JObj(MessageCommandData(message))];
    var data := JObj(payload);
    MessageCommandLoads(app, message);
    var c := FromData(app, data).value;
    assert Payload(data) == Success(payload);
    MessageCommandStages(message);
    assert c.kind == JInt(MESSAGE) && c.targetId == JStr("m1");
    OneMessageParses(message);
    assert c.tables.messages == map["m1" := Record(message.fields)];
    TargetCommandArgs(c);
  }

  /** For a context whose state is the split of its custom ID, as
      `from_data` leaves it, the handler arguments are the custom ID's state
      tokens after the routing key, one per newline, converted by parameter
      type. */
  lemma HandlerArgsFromCustomId(c: Context, params: seq<ParamType>)
    requires c.handlerState == Split(c.customId, Delimiter)
    ensures var r := CreateHandlerArgs(c.handlerState, params);
      && (r.Success? <==>
            forall i | 1 <= i < |c.handlerState| && i < |params| ::
              CoerceToken(params[i], c.handlerState[i]).Success?)
      && (r.Success? ==> |r.value| == Count(c.customId, Delimiter))
  {
    CreateHandlerArgsSpec(c.handlerState, params);
  }

  // ---------------------------------------------------------------------
  // Followup messages
  // ---------------------------------------------------------------------

  /** `app.config[key]`: a context without an application has no config. */
  function Config(app: Option<App>, key: string): (r: Result<Json>)
    ensures r.Success? <==> app.Some? && key in app.value.config
    ensures r.Success? ==> r.value == app.value.config[key]
  {
    match app
    case None => Failure(TypeError("application"))
    case Some(a) => if key in a.config then Success(a.config[key]) else Failure(KeyError(JStr(key)))
  }

  /** The webhook URL of an interaction, `{base}/webhooks/{client_id}/{token}`,
      from the three rendered parts. */
  function WebhookUrl(base: string, client: string, token: string): (r: string)
    ensures StartsWith(r, base + "/webhooks/" + client + "/")
    ensures EndsWith(r, "/" + token)
    ensures r == base + "/webhooks/" + client + "/" + token
  {
    var prefix := base + "/webhooks/" + client + "/";
    StartsWithConcat(prefix, token);
    assert (prefix + token)[|prefix + token| - |"/" + token|..] == "/" + token;
    prefix + token
  }

  /** `followup_url`: the interaction's webhook URL; given a message
      (`JNull` meaning none), the URL of that message under it. */
  function FollowupUrl(c: Context, message: Json): (r: Result<string>)
    ensures r.Success? <==> c.app.Some? && BaseUrlKey in c.app.value.config && ClientIdKey in c.app.value.config
    ensures r.Success? ==>
      var url := WebhookUrl(Str(c.app.value.config[BaseUrlKey]), Str(c.app.value.config[ClientIdKey]), Str(c.token));
      && (message.JNull? ==> r.value == url)
      && (!message.JNull? ==> r.value == url + "/messages/" + Str(message))
  {
    var base :- Config(c.app, BaseUrlKey);
    var client :- Config(c.app, ClientIdKey);
    var url := WebhookUrl(Str(base), Str(client), Str(c.token));
    if message.JNull? then Success(url) else Success(url + "/messages/" + Str(message))
  }

  /** A message's URL is the webhook URL followed by `/messages/` and the
      message id, so editing "@original" addresses the original response. */
  lemma MessageUrlExtendsWebhookUrl(c: Context, message: Json)
    requires !message.JNull?
    ensures FollowupUrl(c, message).Success? <==> FollowupUrl(c, JNull).Success?
    ensures FollowupUrl(c, message).Success? ==>
      FollowupUrl(c, message).value == FollowupUrl(c, JNull).value + "/messages/" + Str(message)
  {
  }

  /** The followup actions: editing or deleting a message, or sending a
      new one. */
  datatype Action = Edit(message: Json) | Delete(message: Json) | Send

  datatype Verb = Patch | DeleteVerb | Post

  /** An HTTP request an action would make: its verb and URL. */
  datatype Request = Request(verb: Verb, url: string)

  /** `not self.app or self.app.config["DONT_REGISTER_WITH_DISCORD"]`: the
      followup actions do nothing without an application or when it is
      not registered with Discord. */
  function SkipsRemote(app: Option<App>): (r: Result<bool>)
    ensures app.None? ==> r == Success(true)
    ensures app.Some? ==> (r.Success? <==> DontRegisterKey in app.value.config)
    ensures app.Some? && r.Success? ==> r.value == Truthy(app.value.config[DontRegisterKey])
  {
    match app
    case None => Success(true)
    case Some(a) =>
      var dont :- Config(app, DontRegisterKey);
      Success(Truthy(dont))
  }

  /** The request `edit`, `delete` or `send` makes, or `None` when the guard
      makes it a no-op. */
  function ActionRequest(c: Context, action: Action): (r: Result<Option<Request>>)
    ensures SkipsRemote(c.app).Failure? ==> r == Failure(SkipsRemote(c.app).error)
    ensures SkipsRemote(c.app) == Success(true) ==> r == Success(None)
    ensures SkipsRemote(c.app) == Success(false) ==>
      (r.Success? <==> FollowupUrl(c, JNull).Success?)
    ensures r.Success? && r.value.Some? ==>
      && SkipsRemote(c.app) == Success(false)
      && (action.Send? ==> r.value.value == Request(Post, FollowupUrl(c, JNull).value))
      && (action.Edit? ==> r.value.value == Request(Patch, FollowupUrl(c, action.message).value))
      && (action.Delete? ==> r.value.value == Request(DeleteVerb, FollowupUrl(c, action.message).value))
  {
    var skip :- SkipsRemote(c.app);
    if skip then Success(None)
    else
      match action
      case Edit(message) =>
        var url :- FollowupUrl(c, message);
        Success(Some(Request(Patch, url)))
      case Delete(message) =>
        var url :- FollowupUrl(c, message);
        Success(Some(Request(DeleteVerb, url)))
      case Send =>
        var url :- FollowupUrl(c, JNull);
        Success(Some(Request(Post, url)))
  }

  /** A context frozen without an application, or one whose application is
      marked as not registered, never makes a request. */
  lemma UnregisteredMakesNoRequest(c: Context, action: Action)
    requires c.app.None? || (DontRegisterKey in c.app.value.config && Truthy(c.app.value.config[DontRegisterKey]))
    ensures ActionRequest(c, action) == Success(None)
  {
  }

  // ---------------------------------------------------------------------
  // get_command
  // ---------------------------------------------------------------------

  /** `get_command`: no name means the invoked command's id; otherwise the
      id of the registered command with that name, and an unknown name is
      an error. */
  function GetCommand(c: Context, name: Json): (r: Result<Json>)
    ensures name.JNull? ==> r == Success(c.commandId)
    ensures !name.JNull? && c.app.Some? && name.JStr? ==>
      (r.Success? <==> name.s in c.app.value.commandIds)
    ensures !name.JNull? && r.Success? ==>
      c.app.Some? && name.JStr? && r.value == c.app.value.commandIds[name.s]
    ensures !name.JNull? && c.app.Some? && (name.JStr? || name.JInt? || name.JBool?) && r.Failure? ==>
      r.error == UnknownCommand(name)
  {
    if name.JNull? then Success(c.commandId)
    else match c.app
      case None => Failure(TypeError("application"))
      case Some(a) =>
        match Lookup(a.commandIds, name)
        case Success(id) => Success(id)
        case Failure(KeyError(_)) => Failure(UnknownCommand(name))
        case Failure(e) => Failure(e)
  }
}

=== FILE: json_values.dfy ===
/** Decoded JSON values as the interaction payload delivers them, and the two
    pieces of Python value semantics the core leans on: truthiness and `==`
    against an integer enum constant. */
module JsonValues {

  /** A decoded JSON value. Objects are unordered maps: JSON object keys are
      always strings. */
  datatype Json =
    | JNull
    | JBool(b: bool)
    | JInt(i: int)
    | JStr(s: string)
    | JArr(items: seq<Json>)
    | JObj(fields: map<string, Json>)

  /** Python truthiness (`if v`, `v or w`): null, false, 0 and empty
      strings, lists and dicts are falsy. */
  predicate Truthy(v: Json) {
    match v
    case JNull => false
    case JBool(b) => b
    case JInt(i) => i != 0
    case JStr(s) => |s| > 0
    case JArr(a) => |a| > 0
    case JObj(m) => |m| > 0
  }

  /** Python `v == n` for an integer constant `n` (an `IntEnum` member):
      `True == 1` and `False == 0` hold, strings and null never equal it. */
  predicate EqualsInt(v: Json, n: int) {
    match v
    case JInt(i) => i == n
    case JBool(b) => (if b then 1 else 0) == n
    case _ => false
  }

  /** `d.get(key, default)` on a dict the model already holds as a map. */
  function GetOr(m: map<string, Json>, key: string, default: Json): Json {
    if key in m then m[key] else default
  }
}

=== FILE: outcomes.dfy ===
/** The exceptions the core raises, and a failure-compatible `Result` so that
    `:-` propagates them the way Python unwinds. */
module Outcomes {
  import opened JsonValues

  datatype Option<+T> = None | Some(value: T)

  datatype Error =
    /** `d[key]` on a dict without that key. */
    | KeyError(key: Json)
    /** `a[i]` on a list or string with an index outside it. */
    | IndexError(index: int)
    /** A JSON value of the wrong kind: Python's TypeError or AttributeError. */
    | TypeError(expected: string)
    /** `int(text)` raised ValueError. */
    | InvalidInt(text: string)
    /** A handler-state token for a `bool` parameter outside True/False/None. */
    | InvalidBool(text: string)
    /** `get_command` with a name the application has not registered. */
    | UnknownCommand(name: Json)
    /** Entries of one section of `resolved` whose record could not be built. */
    | EntriesFailed(section: string, ids: set<string>)

  datatype Result<+T> = Success(value: T) | Failure(error: Error) {

    predicate IsFailure() {
      Failure?
    }

    function PropagateFailure<U>(): Result<U>
      requires Failure?
    {
      Failure(error)
    }

    function Extract(): T
      requires Success?
    {
      value
    }
  }
}

=== FILE: py_ops.dfy ===
/** The Python built-ins the core applies to decoded JSON: subscription
    `v[key]`, `{**v}` (which needs a mapping), `int(v)` and `str(v)`, each
    with the exception Python raises on the wrong kind. (`dict.get` on a
    decoded dict is `JsonValues.GetOr`.) */
module PyOps {
  import opened JsonValues
  import opened Outcomes
  import opened Text

  /** Python list/str indexing: negative indexes count from the end. */
  function SeqIndex<T>(s: seq<T>, i: int): (r: Result<T>)
    ensures r.Success? <==> -|s| <= i < |s|
    ensures r.Success? && i >= 0 ==> r.value == s[i]
  {
    if 0 <= i < |s| then Success(s[i])
    else if -|s| <= i < 0 then Success(s[|s| + i])
    else Failure(IndexError(i))
  }

  /** An integer index as Python reads one: booleans index as 0 and 1. */
  function AsIndex(key: Json): Option<int> {
    match key
    case JInt(i) => Some(i)
    case JBool(b) => Some(if b then 1 else 0)
    case _ => None
  }

  /** Python `v[key]`. A dict looks the key up (its keys are strings, so any
      other hashable key is missing; a list or dict key is unhashable); a
      list or string takes an integer index; anything else is not
      subscriptable. */
  function Subscript(v: Json, key: Json): (r: Result<Json>)
    ensures v.JObj? && key.JStr? && key.s in v.fields ==> r == Success(v.fields[key.s])
    ensures v.JObj? && (key.JNull? || key.JBool? || key.JInt?) ==> r == Failure(KeyError(key))
    ensures v.JObj? && key.JStr? && key.s !in v.fields ==> r == Failure(KeyError(key))
    ensures r.Success? ==> v.JObj? || v.JArr? || v.JStr?
  {
    match v
    case JObj(m) =>
      (match key
       case JStr(k) => if k in m then Success(m[k]) else Failure(KeyError(key))
       case JArr(_) => Failure(TypeError("hashable key"))
       case JObj(_) => Failure(TypeError("hashable key"))
       case _ => Failure(KeyError(key)))
    case JArr(a) =>
      (match AsIndex(key)
       case Some(i) => SeqIndex(a, i)
       case None => Failure(TypeError("integer index")))
    case JStr(s) =>
      (match AsIndex(key)
       case Some(i) =>
         (match SeqIndex(s, i)
          case Success(c) => Success(JStr([c]))
          case Failure(e) => Failure(e))
       case None => Failure(TypeError("integer index")))
    case _ => Failure(TypeError("subscriptable value"))
  }

  /** Python `v[key]` for a string key written in the source. */
  function Item(v: Json, key: string): Result<Json> {
    Subscript(v, JStr(key))
  }

  /** The dict behind `v`, as `{**v}` or `v.items()` need one. */
  function AsDict(v: Json): (r: Result<map<string, Json>>)
    ensures r.Success? <==> v.JObj?
    ensures v.JObj? ==> r.value == v.fields
  {
    match v
    case JObj(m) => Success(m)
    case _ => Failure(TypeError("dict"))
  }

  /** `d[key]` on a dict the core built itself (keyed by entity id). */
  function Lookup<T>(m: map<string, T>, key: Json): (r: Result<T>)
    ensures r.Success? <==> key.JStr? && key.s in m
    ensures r.Success? ==> r.value == m[key.s]
  {
    match key
    case JStr(k) => if k in m then Success(m[k]) else Failure(KeyError(key))
    case JArr(_) => Failure(TypeError("hashable key"))
    case JObj(_) => Failure(TypeError("hashable key"))
    case _ => Failure(KeyError(key))
  }

  /** Python `int(v)`: integers stay, booleans become 0/1, strings are parsed,
      null, lists and dicts raise TypeError. */
  function Int(v: Json): (r: Result<int>)
    ensures v.JInt? ==> r == Success(v.i)
    ensures v.JBool? ==> r == Success(if v.b then 1 else 0)
    ensures v.JStr? ==> r == ParseInt(v.s)
    ensures v.JNull? || v.JArr? || v.JObj? ==> r.Failure?
  {
    match v
    case JInt(i) => Success(i)
    case JBool(b) => Success(if b then 1 else 0)
    case JStr(s) => ParseInt(s)
    case _ => Failure(TypeError("int() argument"))
  }

  /** Python `str(v)` as an f-string interpolates it. Lists and dicts are
      rendered as a fixed marker rather than Python's repr. */
  function Str(v: Json): (r: string)
    ensures v.JStr? ==> r == v.s
    ensures v.JInt? ==> r == IntToString(v.i) && ParseInt(r) == Success(v.i)
    ensures v.JNull? ==> r == "None"
    ensures v.JBool? ==> (r == "True" <==> v.b) && (r == "False" <==> !v.b)
  {
    match v
    case JNull => "None"
    case JBool(b) => if b then "True" else "False"
    case JInt(i) => ParseIntRoundTrip(i); IntToString(i)
    case JStr(s) => s
    case JArr(_) => "[...]"
    case JObj(_) => "{...}"
  }
}

=== FILE: resolved.dfy ===
/** The resolved-entity table and target selection:
    `Context.parse_resolved` and `Context.parse_target`
    (flask_discord_interactions/context.py:132-170). */
module Resolved {
  import opened JsonValues
  import opened Outcomes
  import opened PyOps
  import opened Entities

  /** The parsed `resolved` section: one id-keyed table per entity kind. */
  datatype ResolvedSet = ResolvedSet(
    members: map<string, Member>,
    channels: map<string, Record>,
    roles: map<string, Role>,
    messages: map<string, Record>)

  const EmptyResolvedSet := ResolvedSet(map[], map[], map[], map[])

  /** Application command types the target depends on. */
  const USER := 2
  const MESSAGE := 3

  /** `resolved[section][id]`. */
  function SectionEntry(resolved: Json, section: string, id: Json): (r: Result<Json>)
    ensures r.Success? ==> Item(resolved, section).Success?
    ensures Item(resolved, section).Success? ==> r == Subscript(Item(resolved, section).value, id)
  {
    var table :- Item(resolved, section);
    Subscript(table, id)
  }

  /** `resolved["members"][id]`. */
  function MemberRecord(resolved: Json, id: Json): Result<Json> {
    SectionEntry(resolved, "members", id)
  }

  /** `resolved["users"][id]`. */
  function UserRecord(resolved: Json, id: Json): Result<Json> {
    SectionEntry(resolved, "users", id)
  }

  /** Both records of an id exist and are dicts. */
  predicate BothRecords(resolved: Json, id: Json) {
    && MemberRecord(resolved, id).Success? && MemberRecord(resolved, id).value.JObj?
    && UserRecord(resolved, id).Success? && UserRecord(resolved, id).value.JObj?
  }

  /** A key of a member record over which a `users` entry is laid: the
      entry's value when it has the key, otherwise the record's, otherwise
      null. */
  function Overlay(record: map<string, Json>, user: map<string, Json>, k: string): Json {
    if k in user then user[k] else GetOr(record, k, JNull)
  }

  /** A field of the member an id refers to, read from its two records. */
  function EntryFirst(resolved: Json, id: Json, k: string): Json
    requires BothRecords(resolved, id)
  {
    Overlay(MemberRecord(resolved, id).value.fields, UserRecord(resolved, id).value.fields, k)
  }

  /** Member `m` carries the overlaid fields of the two records: every user
      and member field, the avatar hash read from `avatar`, and the
      permissions after `__post_init__`. */
  predicate LoadedFrom(record: map<string, Json>, user: map<string, Json>, m: Member) {
    && (forall k | k in UserFieldNames && k != "avatar_hash" ::
          UserField(m.user, k) == Overlay(record, user, k))
    && m.user.avatarHash == Overlay(record, user, "avatar")
    && (forall k | k in MemberFieldNames && k != "permissions" ::
          MemberField(m, k) == Overlay(record, user, k))
    && CoercePermissions(Overlay(record, user, "permissions")) == Success(m.permissions)
  }

  /** The fields of the member an id refers to, as `ResolveMember` promises
      them. */
  predicate MemberFromEntries(resolved: Json, id: Json, m: Member)
    requires BothRecords(resolved, id)
  {
    LoadedFrom(MemberRecord(resolved, id).value.fields, UserRecord(resolved, id).value.fields, m)
  }

  /** The member an id refers to: its record under `members`, with the
      record's `user` entry replaced by the entry under `users` for the same
      id, loaded as a Member. Missing either entry fails; so does a record
      that is not a dict, and permissions text that `int()` rejects. */
  function ResolveMember(resolved: Json, id: Json): (r: Result<Member>)
    ensures r.Success? <==>
      BothRecords(resolved, id) && CoercePermissions(EntryFirst(resolved, id, "permissions")).Success?
    ensures r.Success? ==> MemberFromEntries(resolved, id, r.value)
    ensures UserRecord(resolved, id).Failure? ==> r.Failure?
  {
    var record :- MemberRecord(resolved, id);
    var user :- UserRecord(resolved, id);
    var fields :- AsDict(record);
    OverlayLoads(fields, user);
    MemberFromDict(JObj(fields["user" := user]))
  }

  /** Laying a `users` entry over a member record as its `user` entry and
      loading the result gives the member whose fields `Overlay` reads. */
  lemma OverlayLoads(record: map<string, Json>, user: Json)
    ensures
      var m := MemberFromDict(JObj(record["user" := user]));
      && (m.Success? <==>
            user.JObj? && CoercePermissions(Overlay(record, user.fields, "permissions")).Success?)
      && (m.Success? ==> LoadedFrom(record, user.fields, m.value))
  {
    var data := JObj(record["user" := user]);
    assert Mergeable(data) <==> user.JObj?;
    if user.JObj? {
      NestedFirstIsOverlay(record, user.fields, "permissions");
      if MemberFromDict(data).Success? {
        OverlayFields(record, user.fields);
      }
    }
  }

  /** The fields of a member loaded from an overlaid record. */
  lemma OverlayFields(record: map<string, Json>, user: map<string, Json>)
    requires MemberFromDict(JObj(record["user" := JObj(user)])).Success?
    ensures LoadedFrom(record, user, MemberFromDict(JObj(record["user" := JObj(user)])).value)
  {
    var data := JObj(record["user" := JObj(user)]);
    var m := MemberFromDict(data).value;
    OverlayUserFields(record, user, m.user);
    forall k | k in MemberFieldNames && k != "permissions"
      ensures MemberField(m, k) == Overlay(record, user, k)
    {
      NestedFirstIsOverlay(record, user, k);
    }
    NestedFirstIsOverlay(record, user, "permissions");
  }

  /** The user part of a member loaded from an overlaid record. */
  lemma OverlayUserFields(record: map<string, Json>, user: map<string, Json>, u: User)
    requires UserFromDict(JObj(record["user" := JObj(user)])) == Success(u)
    ensures forall k | k in UserFieldNames && k != "avatar_hash" :: UserField(u, k) == Overlay(record, user, k)
    ensures u.avatarHash == Overlay(record, user, "avatar")
  {
    forall k | k in UserFieldNames && k != "avatar_hash"
      ensures UserField(u, k) == Overlay(record, user, k)
    {
      NestedFirstIsOverlay(record, user, k);
    }
    NestedFirstIsOverlay(record, user, "avatar");
  }

  /** Outside the `user` key itself, the merge `User.from_dict` performs
      reads a key the way `Overlay` does. */
  lemma NestedFirstIsOverlay(record: map<string, Json>, user: map<string, Json>, k: string)
    requires k != "user"
    ensures NestedFirst(JObj(record["user" := JObj(user)]), k) == Overlay(record, user, k)
  {
  }

  /** The user fields of a resolved member are exactly those of its entry
      under `users`: every user field that entry carries is taken from it,
      and the avatar hash is its `avatar`. */
  lemma ResolvedMemberCarriesUserEntry(resolved: Json, id: Json)
    requires BothRecords(resolved, id)
    requires CoercePermissions(EntryFirst(resolved, id, "permissions")).Success?
    ensures ResolveMember(resolved, id).Success?
    ensures
      var user := UserRecord(resolved, id).value.fields;
      var m := ResolveMember(resolved, id).value;
      && (forall k | k in UserFieldNames && k != "avatar_hash" && k in user ::
            UserField(m.user, k) == user[k])
      && ("avatar" in user ==> m.user.avatarHash == user["avatar"])
  {
    var user := UserRecord(resolved, id).value.fields;
    var m := ResolveMember(resolved, id).value;
    forall k | k in UserFieldNames && k != "avatar_hash" && k in user
      ensures UserField(m.user, k) == user[k]
    {
      assert MemberFromEntries(resolved, id, m);
    }
  }

  /** Every entry of a section turned into an entity; if any fails the
      whole table fails, naming the ids that failed. */
  function BuildTable<T>(section: string, ids: set<string>, build: string -> Result<T>): (r: Result<map<string, T>>)
    ensures r.Success? <==> forall id | id in ids :: build(id).Success?
    ensures r.Success? ==> r.value.Keys == ids
    ensures r.Success? ==> forall id | id in ids :: build(id) == Success(r.value[id])
    ensures r.Failure? ==>
      && r.error.EntriesFailed? && r.error.section == section
      && r.error.ids != {}
      && forall id | id in r.error.ids :: id in ids && build(id).Failure?
  {
    if forall id | id in ids :: build(id).Success? then
      Success(map id | id in ids :: build(id).value)
    else
      var failed := set id | id in ids && build(id).Failure?;
      assert failed != {} by {
        var bad :| bad in ids && build(bad).Failure?;
        assert bad in failed;
      }
      Failure(EntriesFailed(section, failed))
  }

  /** The ids `for id in v` visits when `v` holds member records: the keys
      of a dict; an empty list or string visits none. */
  function IteratedIds(v: Json): (r: Result<set<string>>)
    ensures v.JObj? ==> r == Success(v.fields.Keys)
  {
    match v
    case JObj(m) => Success(m.Keys)
    case JArr(a) => if |a| == 0 then Success({}) else Failure(TypeError("dict of member records"))
    case JStr(s) => if |s| == 0 then Success({}) else Failure(TypeError("dict of member records"))
    case _ => Failure(TypeError("iterable"))
  }

  /** A section of `resolved`, `{}` when absent. */
  function Section(resolved: map<string, Json>, name: string): Json {
    GetOr(resolved, name, JObj(map[]))
  }

  /** Every value of a section is a dict. */
  predicate DictOfDicts(v: Json) {
    v.JObj? && forall id | id in v.fields :: v.fields[id].JObj?
  }

  /** What `parse_resolved` needs to succeed: a dict whose member ids all
      resolve against `users`, and channel, role and message sections that
      map ids to dicts. */
  predicate ResolvedLoads(resolved: Json) {
    && resolved.JObj?
    && IteratedIds(Section(resolved.fields, "members")).Success?
    && (forall id | id in IteratedIds(Section(resolved.fields, "members")).value ::
          ResolveMember(resolved, JStr(id)).Success?)
    && DictOfDicts(Section(resolved.fields, "channels"))
    && DictOfDicts(Section(resolved.fields, "roles"))
    && DictOfDicts(Section(resolved.fields, "messages"))
  }

  /** `parse_resolved`. Each member id listed under `members` is resolved
      with its `users` entry; channels, roles and messages are loaded from
      their own sections. An absent section is an empty table. */
  function ParseResolved(resolved: Json): (r: Result<ResolvedSet>)
    ensures r.Success? ==> ResolvedLoads(resolved)
    ensures r.Success? ==>
      && r.value.members.Keys == IteratedIds(Section(resolved.fields, "members")).value
      && forall id | id in r.value.members ::
           ResolveMember(resolved, JStr(id)) == Success(r.value.members[id])
    ensures r.Success? ==>
      && r.value.channels.Keys == Section(resolved.fields, "channels").fields.Keys
      && forall id | id in r.value.channels ::
           RecordFromDict(Section(resolved.fields, "channels").fields[id])
             == Success(r.value.channels[id])
    ensures r.Success? ==>
      && r.value.roles.Keys == Section(resolved.fields, "roles").fields.Keys
      && forall id | id in r.value.roles ::
           RoleFromDict(Section(resolved.fields, "roles").fields[id])
             == Success(r.value.roles[id])
    ensures r.Success? ==>
      && r.value.messages.Keys == Section(resolved.fields, "messages").fields.Keys
      && forall id | id in r.value.messages ::
           RecordFromDict(Section(resolved.fields, "messages").fields[id])
             == Success(r.value.messages[id])
  {
    var sections :- AsDict(resolved);
    var memberIds :- IteratedIds(Section(sections, "members"));
    var members :- BuildTable("members", memberIds, id => ResolveMember(resolved, JStr(id)));
    var channelData :- AsDict(Section(sections, "channels"));
    var channels :- BuildTable("channels", channelData.Keys,
                               id => RecordFromDict(GetOr(channelData, id, JNull)));
    var roleData :- AsDict(Section(sections, "roles"));
    var roles :- BuildTable("roles", roleData.Keys,
                            id => RoleFromDict(GetOr(roleData, id, JNull)));
    var messageData :- AsDict(Section(sections, "messages"));
    var messages :- BuildTable("messages", messageData.Keys,
                               id => RecordFromDict(GetOr(messageData, id, JNull)));
    Success(ResolvedSet(members, channels, roles, messages))
  }

  /** `parse_resolved` succeeds exactly when every member id resolves and
      every channel, role and message entry is a dict. */
  lemma ParseResolvedSucceedsIff(resolved: Json)
    ensures ParseResolved(resolved).Success? <==> ResolvedLoads(resolved)
  {
    if ResolvedLoads(resolved) {
      var sections := resolved.fields;
      var memberIds := IteratedIds(Section(sections, "members")).value;
      assert BuildTable("members", memberIds, id => ResolveMember(resolved, JStr(id))).Success?;
      var channelData := Section(sections, "channels").fields;
      assert BuildTable("channels", channelData.Keys,
                        id => RecordFromDict(GetOr(channelData, id, JNull))).Success?;
      var roleData := Section(sections, "roles").fields;
      assert BuildTable("roles", roleData.Keys,
                        id => RoleFromDict(GetOr(roleData, id, JNull))).Success?;
      var messageData := Section(sections, "messages").fields;
      assert BuildTable("messages", messageData.Keys,
                        id => RecordFromDict(GetOr(messageData, id, JNull))).Success?;
    }
  }

  /** An empty `resolved` section (the default when the payload has none)
      gives four empty tables. */
  lemma EmptyResolvedIsEmpty()
    ensures ParseResolved(JObj(map[])) == Success(EmptyResolvedSet)
  {
  }

  /** A member listed under `members` whose id has no entry under `users`
      makes the whole parse fail. */
  lemma MemberWithoutUserFails(resolved: Json, id: string)
    requires resolved.JObj?
    requires "members" in resolved.fields && resolved.fields["members"].JObj?
    requires id in resolved.fields["members"].fields
    requires "users" !in resolved.fields
      || (resolved.fields["users"].JObj? && id !in resolved.fields["users"].fields)
    ensures ParseResolved(resolved).Failure?
  {
    assert ResolveMember(resolved, JStr(id)).Failure?;
  }

  /** `parse_target`: a user command targets the resolved member with the
      target id, a message command the resolved message; every other type
      has no target. A user or message command whose target id is absent or
      unresolved fails. */
  function ParseTarget(kind: Json, targetId: Json, resolved: ResolvedSet): (r: Result<Option<Entity>>)
    ensures EqualsInt(kind, USER) ==>
      (r.Success? <==> targetId.JStr? && targetId.s in resolved.members)
    ensures EqualsInt(kind, USER) && r.Success? ==>
      r.value == Some(MemberEntity(resolved.members[targetId.s]))
    ensures EqualsInt(kind, MESSAGE) ==>
      (r.Success? <==> targetId.JStr? && targetId.s in resolved.messages)
    ensures EqualsInt(kind, MESSAGE) && r.Success? ==>
      r.value == Some(MessageEntity(resolved.messages[targetId.s]))
    ensures !EqualsInt(kind, USER) && !EqualsInt(kind, MESSAGE) ==> r == Success(None)
    ensures targetId.JNull? && (EqualsInt(kind, USER) || EqualsInt(kind, MESSAGE)) ==>
      r == Failure(KeyError(JNull))
  {
    if EqualsInt(kind, USER) then
      var member :- Lookup(resolved.members, targetId);
      Success(Some(MemberEntity(member)))
    else if EqualsInt(kind, MESSAGE) then
      var message :- Lookup(resolved.messages, targetId);
      Success(Some(MessageEntity(message)))
    else
      Success(None)
  }
}

=== FILE: text.dfy ===
/** String operations of Python's `str` that the core uses: `split` on a
    one-character separator, `startswith`/`endswith`, and the conversions
    `int(text)` and `str(n)` between integers and decimal text, including the
    whitespace `int(text)` ignores around the number. */
module Text {
  import opened Outcomes

  // ---------------------------------------------------------------------
  // Splitting and joining
  // ---------------------------------------------------------------------

  /** Number of occurrences of `c` in `s`. */
  function Count(s: string, c: char): nat {
    if |s| == 0 then 0 else (if s[0] == c then 1 else 0) + Count(s[1..], c)
  }

  /** Python `s.split(sep)` for a one-character separator: the pieces between
      separators, always at least one (`"".split("\n") == [""]`). */
  function Split(s: string, sep: char): (parts: seq<string>)
    ensures |parts| == Count(s, sep) + 1
    ensures forall i | 0 <= i < |parts| :: sep !in parts[i]
  {
    if |s| == 0 then [""]
    else
      var rest := Split(s[1..], sep);
      if s[0] == sep then [""] + rest
      else [[s[0]] + rest[0]] + rest[1..]
  }

  /** Python `sep.join(parts)`. */
  function Join(parts: seq<string>, sep: char): string {
    if |parts| == 0 then ""
    else if |parts| == 1 then parts[0]
    else parts[0] + [sep] + Join(parts[1..], sep)
  }

  /** Python `s.split(sep, 1)[0]`: the text before the first separator. */
  function BeforeFirst(s: string, sep: char): (r: string)
    ensures |r| <= |s| && r == s[..|r|]
    ensures sep !in r
    ensures |r| < |s| ==> s[|r|] == sep
  {
    if |s| == 0 || s[0] == sep then "" else [s[0]] + BeforeFirst(s[1..], sep)
  }

  /** Growing the first piece by one character grows the joined text by it. */
  lemma JoinPrependChar(c: char, parts: seq<string>, sep: char)
    requires |parts| >= 1
    ensures Join([[c] + parts[0]] + parts[1..], sep) == [c] + Join(parts, sep)
  {
    var grown := [[c] + parts[0]] + parts[1..];
    if |parts| > 1 {
      assert grown[1..] == parts[1..];
    }
  }

  /** Joining the pieces of a split gives the text back. */
  lemma {:induction false} JoinSplit(s: string, sep: char)
    ensures Join(Split(s, sep), sep) == s
  {
    if |s| > 0 {
      var rest := Split(s[1..], sep);
      JoinSplit(s[1..], sep);
      if s[0] == sep {
        assert ([""] + rest)[1..] == rest;
        assert Join([""] + rest, sep) == [sep] + Join(rest, sep);
      } else {
        JoinPrependChar(s[0], rest, sep);
      }
      assert s == [s[0]] + s[1..];
    }
  }

  /** A text without the separator splits into itself alone. */
  lemma {:induction false} SplitWithoutSeparator(p: string, sep: char)
    requires sep !in p
    ensures Split(p, sep) == [p]
  {
    if |p| > 0 {
      SplitWithoutSeparator(p[1..], sep);
      assert [p[0]] + p[1..] == p;
    }
  }

  /** A separator-free prefix followed by the separator becomes its own piece. */
  lemma {:induction false} SplitAfterPiece(p: string, t: string, sep: char)
    requires sep !in p
    ensures Split(p + [sep] + t, sep) == [p] + Split(t, sep)
  {
    var s := p + [sep] + t;
    if |p| == 0 {
      assert s[1..] == t;
    } else {
      assert s[1..] == p[1..] + [sep] + t;
      SplitAfterPiece(p[1..], t, sep);
      assert [p[0]] + p[1..] == p;
    }
  }

  /** Splitting a join of separator-free pieces gives the pieces back. */
  lemma {:induction false} SplitJoin(parts: seq<string>, sep: char)
    requires |parts| >= 1
    requires forall i | 0 <= i < |parts| :: sep !in parts[i]
    ensures Split(Join(parts, sep), sep) == parts
  {
    if |parts| == 1 {
      SplitWithoutSeparator(parts[0], sep);
    } else {
      SplitJoin(parts[1..], sep);
      SplitAfterPiece(parts[0], Join(parts[1..], sep), sep);
      assert [parts[0]] + parts[1..] == parts;
    }
  }

  /** The first piece of a full split is the text before the first separator,
      which is what a split limited to one cut keeps. */
  lemma {:induction false} SplitHeadIsBeforeFirst(s: string, sep: char)
    ensures Split(s, sep)[0] == BeforeFirst(s, sep)
  {
    if |s| > 0 && s[0] != sep {
      SplitHeadIsBeforeFirst(s[1..], sep);
    }
  }

  // ---------------------------------------------------------------------
  // Prefixes and suffixes
  // ---------------------------------------------------------------------

  /** Python `s.startswith(p)`. */
  predicate StartsWith(s: string, p: string) {
    |p| <= |s| && s[..|p|] == p
  }

  /** A text starts with any of its prefixes. */
  lemma StartsWithConcat(p: string, t: string)
    ensures StartsWith(p + t, p)
  {
    assert (p + t)[..|p|] == p;
  }

  /** Python `s.endswith(p)`. */
  predicate EndsWith(s: string, p: string) {
    |p| <= |s| && s[|s| - |p|..] == p
  }

  // ---------------------------------------------------------------------
  // Whitespace
  // ---------------------------------------------------------------------

  /** The whitespace `int(text)` ignores around a number: the ASCII tab,
      line-break, vertical-tab, form-feed and space characters, and the
      non-ASCII whitespace (NEL, NO-BREAK SPACE, the Unicode space and
      line/paragraph separators), which CPython maps to a space first. The
      ASCII separator controls U+001C to U+001F, whitespace to `str.strip`,
      are not skipped by `int`. */
  predicate IsSpace(c: char) {
    var n := c as int;
    || 9 <= n <= 13 || n == 32
    || n == 0x85 || n == 0xA0 || n == 0x1680
    || 0x2000 <= n <= 0x200A
    || n == 0x2028 || n == 0x2029 || n == 0x202F || n == 0x205F || n == 0x3000
  }

  function TrimStart(s: string): (r: string)
    ensures |r| <= |s| && r == s[|s| - |r|..]
    ensures |r| > 0 ==> !IsSpace(r[0])
  {
    if |s| > 0 && IsSpace(s[0]) then TrimStart(s[1..]) else s
  }

  function TrimEnd(s: string): (r: string)
    ensures |r| <= |s| && r == s[..|r|]
    ensures |r| > 0 ==> !IsSpace(r[|r| - 1])
  {
    if |s| > 0 && IsSpace(s[|s| - 1]) then TrimEnd(s[..|s| - 1]) else s
  }

  /** The text `int(text)` reads: `text` without the surrounding whitespace
      `IsSpace` names. */
  function Strip(s: string): string {
    TrimEnd(TrimStart(s))
  }

  /** Trimming the end of a text that starts with a non-space keeps its
      first character. */
  lemma {:induction false} TrimEndKeepsHead(s: string)
    requires |s| > 0 && !IsSpace(s[0])
    ensures |TrimEnd(s)| > 0 && TrimEnd(s)[0] == s[0]
  {
    if IsSpace(s[|s| - 1]) {
      TrimEndKeepsHead(s[..|s| - 1]);
    }
  }

  /** A number preceded by an ASCII separator control (U+001C to U+001F)
      does not parse, although `str.strip` would remove the control. */
  lemma SeparatorControlRejected(c: char, t: string)
    requires 28 <= c as int <= 31
    ensures ParseInt([c] + t).Failure?
  {
    TrimEndKeepsHead([c] + t);
    assert Strip([c] + t)[0] == c;
  }

  /** Text that neither starts nor ends with whitespace is left alone. */
  lemma StripUnpadded(s: string)
    requires |s| > 0 && !IsSpace(s[0]) && !IsSpace(s[|s| - 1])
    ensures Strip(s) == s
  {
  }

  // ---------------------------------------------------------------------
  // Decimal integers
  // ---------------------------------------------------------------------

  predicate IsDigit(c: char) {
    '0' <= c <= '9'
  }

  predicate AllDigits(s: string) {
    forall i | 0 <= i < |s| :: IsDigit(s[i])
  }

  function DigitChar(d: nat): (c: char)
    requires d < 10
    ensures IsDigit(c)
  {
    ('0' as int + d) as char
  }

  /** The value of a string of decimal digits, most significant first. */
  function DigitsValue(s: string): nat
    requires AllDigits(s)
  {
    if |s| == 0 then 0
    else DigitsValue(s[..|s| - 1]) * 10 + (s[|s| - 1] as int - '0' as int)
  }

  /** The shortest decimal digits of `n`. */
  function NatToDigits(n: nat): (s: string)
    ensures |s| >= 1 && AllDigits(s)
    ensures s[0] == '0' <==> n == 0
    ensures n == 0 ==> s == "0"
  {
    if n < 10 then [DigitChar(n)] else NatToDigits(n / 10) + [DigitChar(n % 10)]
  }

  /** Reading back the digits of `n` gives `n`. */
  lemma {:induction false} DigitsRoundTrip(n: nat)
    ensures DigitsValue(NatToDigits(n)) == n
  {
    var s := NatToDigits(n);
    if n < 10 {
      assert s[..|s| - 1] == [];
    } else {
      DigitsRoundTrip(n / 10);
      assert s[..|s| - 1] == NatToDigits(n / 10);
    }
  }

  /** Python `str(i)` for an integer: a `-` exactly for a negative number,
      then the digits without leading zeros. */
  function IntToString(i: int): (s: string)
    ensures |s| >= 1 && !IsSpace(s[0]) && IsDigit(s[|s| - 1])
    ensures i >= 0 <==> AllDigits(s)
    ensures s[0] == '-' <==> i < 0
    ensures i < 0 ==> |s| >= 2 && AllDigits(s[1..]) && s[1] != '0'
    ensures i >= 0 && s[0] == '0' ==> i == 0 && s == "0"
  {
    if i < 0 then "-" + NatToDigits(-i) else NatToDigits(i)
  }

  /** An optional sign followed by at least one decimal digit. */
  predicate IsIntLiteral(t: string) {
    || (|t| >= 1 && AllDigits(t))
    || (|t| >= 2 && (t[0] == '+' || t[0] == '-') && AllDigits(t[1..]))
  }

  /** Python `int(text)`: surrounding whitespace is ignored, then an optional
      sign and at least one decimal digit must make up the rest; anything
      else raises ValueError. */
  function ParseInt(text: string): (r: Result<int>)
    ensures r.Success? <==> IsIntLiteral(Strip(text))
    ensures r.Failure? ==> r.error == InvalidInt(text)
    ensures r.Success? && AllDigits(Strip(text)) ==> r.value == DigitsValue(Strip(text))
    ensures r.Success? && Strip(text)[0] == '+' ==> r.value == DigitsValue(Strip(text)[1..])
    ensures r.Success? && Strip(text)[0] == '-' ==> r.value == 0 - DigitsValue(Strip(text)[1..])
  {
    var t := Strip(text);
    if |t| >= 2 && t[0] == '-' && AllDigits(t[1..]) then Success(0 - DigitsValue(t[1..]))
    else if |t| >= 2 && t[0] == '+' && AllDigits(t[1..]) then Success(DigitsValue(t[1..]))
    else if |t| >= 1 && AllDigits(t) then Success(DigitsValue(t))
    else Failure(InvalidInt(text))
  }

  /** `int(str(i)) == i`: the decimal rendering of every integer parses back
      to it. */
  lemma ParseIntRoundTrip(i: int)
    ensures ParseInt(IntToString(i)) == Success(i)
  {
    var s := IntToString(i);
    StripUnpadded(s);
    assert Strip(s) == s;
    if i < 0 {
      var digits := NatToDigits(-i);
      assert s == "-" + digits;
      assert s[1..] == digits;
      DigitsRoundTrip(-i);
      assert s[0] == '-' && |s| >= 2 && AllDigits(s[1..]);
    } else {
      DigitsRoundTrip(i);
      assert IsDigit(s[0]);
    }
  }
}
